=== FILE: README.md ===
# bidir-synth core, modelled in Dafny

This project models the small, pure pieces around the bidirectional program-synthesis engine of bidir-synth. It also models one operator of the DeepCoder interpreter it bundles. The pieces are:

- **Inverses of grid primitives** (`InverseFunctions`), with grids as rectangular `seq<seq<int>>` (`Grids`):
  - the conditional inverses of vertical and horizontal stacking;
  - the exact inverse of `block`;
  - the kronecker consistency check;
  - the sort-permutation inverse;
  - the overlay conditional inverses.

  Each one either returns a pre-image or raises `SynthError`, or the Python error named in its row below (`IndexError`, `ValueError`, `ZeroDivisionError` or a plain `Exception`).
- **The synthesis environment** (`Environment`): `SynthEnv`'s construction, `reset`, `done`, `step` and `episode_rewards`. It is a record-based state machine over an abstract program search graph.
- **The symmetry-task generator's deterministic grid transforms** (`SymmetryTasks`):
  - grid construction and least-common-colour fill;
  - the numpy rotations and flips;
  - the mirror overlays, mirror cascades and the four-way symmetry check;
  - tiling.
- **Policy-gradient bookkeeping** (`PolicyGradient`): discounted step rewards, `reward_to_go`, and the choice of per-action weights at the end of an episode.
- **Task helpers** (`TaskUtils`): the `Task` record, `twenty_four_task`, the zipping in `arc_task`, and the id table `num_to_id` builds from the lines of its id file.
- **Utilities** (`Utils`): `soft_assert`, `assertEqual`, and `next_unused_path` over a set of existing files.
- **The operation registry** (`ArcOps`): `tuple_return`, the constant operations, the conditional-inverse masks, the duplicate-name check and `OP_DICT`.
- **`MaximumUnop.apply`** (`MaximumUnop`): a list maximum in which 256 stands for the maximum of the empty list.

Python exceptions are modelled as `Wrappers.Error` values carried by `Result` and `Outcome`, with one constructor per exception class. The Python built-ins the code relies on are modelled explicitly in `PyBuiltins`:

- negative indices and slice bounds;
- `rstrip` / `lstrip` with a character set;
- `split` / `join` on one character;
- `rindex`;
- `int()` and `str()` on integers.

Random choices, the file system and the search graph are parameters of the model functions.

## Model

| member | source | states |
|---|---|---|
| Utils.SoftAssert | bidir-synth/bidir/utils.py:21-27 | passes exactly when the condition holds, otherwise fails with `SynthError` |
| Utils.AssertEqual | bidir-synth/bidir/utils.py:30-31 | passes exactly when the two values are equal, otherwise `AssertionError` |
| Utils.CandidateInjective | bidir-synth/bidir/utils.py:41 | different counters give different alternative file names |
| Utils.CandidatesFitIn | bidir-synth/bidir/utils.py:39-42 | if the first `n` alternative names all exist, at least `n` files exist, which bounds the search loop |
| Utils.NextUnusedPath | bidir-synth/bidir/utils.py:34-44 | `ValueError` exactly when the path has no '.'; otherwise a name that does not exist: the path itself if it is free, else `stem + "__k" + ext` split at the last '.', where every smaller `k` names an existing file (so suffixes never accumulate) |
| InverseFunctions.CondAssert | bidir-synth/bidir/primitives/inverse_functions.py:9-16 | passes exactly when the condition holds, otherwise `SynthError` |
| InverseFunctions.InvAssertEqual | bidir-synth/bidir/primitives/inverse_functions.py:19-33 | passes exactly when the two values are equal, otherwise `SynthError` |
| InverseFunctions.VStackCondInvTop | bidir-synth/bidir/primitives/inverse_functions.py:40-58 | succeeds exactly when the widths agree and `top` is a prefix of the rows of `out`; stacking `top` on the result then gives `out` back; failures are `SynthError` |
| InverseFunctions.VStackCondInvBottom | bidir-synth/bidir/primitives/inverse_functions.py:61-79 | succeeds exactly when the widths agree and `bottom` is the last rows of `out` (numpy slicing with a negative bound included); stacking the result on `bottom` gives `out` back |
| InverseFunctions.HStackCondInvLeft | bidir-synth/bidir/primitives/inverse_functions.py:82-100 | succeeds exactly when the heights agree and `left` is the leading columns of `out`; joining `left` and the result row by row gives `out` back |
| InverseFunctions.HStackCondInvRight | bidir-synth/bidir/primitives/inverse_functions.py:103-121 | succeeds exactly when the heights agree and `right` is the trailing columns of `out`; joining the result and `right` gives `out` back |
| InverseFunctions.VStackRoundTrip | bidir-synth/bidir/primitives/inverse_functions.py:40-79 | for grids of equal width, both vstack inverses applied to the stacked grid return the other part |
| InverseFunctions.HStackRoundTrip | bidir-synth/bidir/primitives/inverse_functions.py:82-121 | for grids of equal height, both hstack inverses applied to the joined grid return the other part |
| InverseFunctions.BlockInv | bidir-synth/bidir/primitives/inverse_functions.py:124-131 | `IndexError` for an empty grid; `SynthError` for a non-empty grid that is not uniform; success exactly when every cell equals `grid[0][0]`, returning (height, width, that colour), from which `np.full` rebuilds the grid |
| InverseFunctions.UniformIsFull | bidir-synth/bidir/primitives/inverse_functions.py:128-130 | a grid is uniform in a colour exactly when it equals the full grid of its shape in that colour |
| InverseFunctions.BlockRoundTrip | bidir-synth/bidir/primitives/inverse_functions.py:124-131 | the inverse of a non-empty full grid returns its height, width and colour |
| InverseFunctions.NonzeroPositions | bidir-synth/bidir/primitives/inverse_functions.py:145-150 | the block positions collected are exactly those whose block has a nonzero cell (the Euclidean norm is positive) |
| InverseFunctions.ScanDecidesAgreement | bidir-synth/bidir/primitives/inverse_functions.py:151-154 | comparing every collected block with the first one decides whether all nonzero blocks are pairwise equal |
| InverseFunctions.KronScan | bidir-synth/bidir/primitives/inverse_functions.py:139-154 | the scan over all blocks agrees exactly when all nonzero template-sized blocks are equal |
| InverseFunctions.KroneckerConsistency | bidir-synth/bidir/primitives/inverse_functions.py:134-154 | a zero template dimension is a `ZeroDivisionError`; template dimensions of opposite signs are a `ValueError` (`np.zeros` given the negative size `M1 * N1`); two negative dimensions always pass, since no block is visited; otherwise passes exactly when all nonzero blocks agree, else `SynthError` |
| InverseFunctions.NegativeTemplateNoBlocks | bidir-synth/bidir/primitives/inverse_functions.py:141-145 | floor division by a negative template dimension gives a block count of at most zero, and below zero for a non-empty output |
| InverseFunctions.SortByKeyCondInv | bidir-synth/bidir/primitives/inverse_functions.py:167-179 | a plain `Exception` exactly when some element of `ys` is not in `xs`; otherwise one index per element of `ys`, each the last position of that element in `xs` |
| InverseFunctions.Pad | bidir-synth/bidir/primitives/inverse_functions.py:190-195 | the padded grid has the target shape, keeps the given cells and is background elsewhere |
| InverseFunctions.OverlayCondInv | bidir-synth/bidir/primitives/inverse_functions.py:182-225 | a given part larger than `out` is a `ValueError`; `SynthError` exactly when no padded cell agrees with `out`; the inverse succeeds exactly when the part fits and some padded cell agrees with `out`, and then the result has `out`'s shape and is background where the padded part agrees with `out` and `out` elsewhere |
| InverseFunctions.OverlayTopExact | bidir-synth/bidir/primitives/inverse_functions.py:182-202 | after a successful inverse given the top, overlaying the top on the recovered bottom gives `out` back exactly when every cell where the top disagrees with `out` is background in the top |
| InverseFunctions.OverlayBottomExact | bidir-synth/bidir/primitives/inverse_functions.py:205-225 | after a successful inverse given the bottom, overlaying the recovered top on the bottom gives `out` back exactly when no disagreeing cell is background in `out` |
| InverseFunctions.OverlayTopUnchecked | bidir-synth/bidir/primitives/inverse_functions.py:196-202 | a concrete top grid that contradicts the output is accepted, and the pair it yields does not overlay back to the output |
| Environment.DefaultEpisodeLength | bidir-synth/rl/environment.py:32-41 | with the constructor defaults (`max_actions=100`), an episode started by `reset` is over exactly when 100 actions have been taken or the task is solved |
| Environment.Init | bidir-synth/rl/environment.py:59-69 | construction succeeds exactly when one of task and sampler is given (`AssertionError` otherwise), and starts a reset, well-formed episode |
| Environment.DefaultConfig | bidir-synth/rl/environment.py:32-41 | the constructor defaults: budget 100, solve reward 100, error penalty -1, timeout penalty 0; what the budget means is stated by `DefaultEpisodeLength` |
| Environment.Reset | bidir-synth/rl/environment.py:71-76 | no actions taken, no error steps, the fresh graph, same configuration |
| Environment.Done | bidir-synth/rl/environment.py:94-97 | `done()`: the budget is set and used up, or the graph is solved; `BudgetEndsEpisode` and `DefaultEpisodeLength` state when a run reaches it |
| Environment.ArgPositions | bidir-synth/rl/environment.py:141-142 | the argument indices resolve (with Python negative indexing) exactly when each is in range, else `IndexError` |
| Environment.Attempt | bidir-synth/rl/environment.py:139-143 | an out-of-range operation or argument index is an `IndexError`; otherwise the operation's own outcome |
| Environment.Step | bidir-synth/rl/environment.py:124-160 | only exceptions other than `SynthError` escape; a step adds exactly one to the count; a `SynthError` records the pre-step count and keeps the graph; the reward is the solve reward if solved, else the timeout penalty at count == budget, else the error penalty or 0; `done` is reported for the new state |
| Environment.StepPreservesWellFormed | bidir-synth/rl/environment.py:144-158 | error steps stay among the steps taken, and the step just taken is recorded exactly when it raised `SynthError` |
| Environment.TimeoutPenaltyOnlyAfterDone | bidir-synth/rl/environment.py:153-156 | inside an unfinished episode the timeout penalty never applies |
| Environment.LastBudgetedStep | bidir-synth/rl/environment.py:94-97 | the step that uses up the budget reports `done` and is paid like any other step |
| Environment.RunCounts | bidir-synth/rl/environment.py:158 | a run of actions adds its length to the count, keeps the configuration and stays well-formed |
| Environment.BudgetEndsEpisode | bidir-synth/rl/environment.py:94-96 | after a reset, at least `max_actions` successful steps end the episode |
| Environment.BaseRewards | bidir-synth/rl/environment.py:109-110 | one reward per step: -1 at error steps, 0 elsewhere |
| Environment.Attribute | bidir-synth/rl/environment.py:115-117 | an `AssertionError` for a program step that raised, an `IndexError` for one beyond the count; otherwise program steps get the share and all others keep their reward |
| Environment.EpisodeRewards | bidir-synth/rl/environment.py:99-119 | `None` exactly while not done. A finished, unsolved episode gets the base rewards. A finished, solved episode without a program is an `AssertionError`. With a program, it succeeds exactly when every program step is below the action count and did not raise; the base rewards then have each program step set to `solve_reward / len(program)`. A program step that raised is an `AssertionError` (line 116), and one beyond the count is an `IndexError` (line 117) |
| Environment.UnsolvedRewardsSum | bidir-synth/rl/environment.py:106-119 | an unsolved finished episode's rewards sum to minus the number of error steps |
| Environment.SolvedRewardsSum | bidir-synth/rl/environment.py:106-119 | a solved finished episode with valid program steps succeeds; its rewards sum to the share times the number of distinct program steps, minus the error steps, so a program of distinct steps pays out exactly `solve_reward` |
| Environment.SolvedRewardsArePaid | bidir-synth/rl/environment.py:109-117 | position by position, a solved episode's rewards are the share at program steps, -1 at other error steps and 0 elsewhere |
| Environment.PaidRewardsSum | bidir-synth/rl/environment.py:109-117 | such a reward list sums to the share once per paid step minus one per error step |
| Environment.RepeatedShare | bidir-synth/rl/environment.py:117 | handing `solve_reward / n` to each of `n` steps hands out `solve_reward` |
| Environment.BaseRewardsSum | bidir-synth/rl/environment.py:109-110 | the base rewards sum to minus the number of error steps |
| PolicyGradient.Discounted | bidir-synth/experiments/pol_grad_24.py:97-110 | the reward of step `k` scaled by `factor^k` |
| PolicyGradient.CollectRewards | bidir-synth/experiments/pol_grad_24.py:97-110 | the collected rewards are the step rewards times `factor^k`, and with factor 1 they are the step rewards themselves |
| PolicyGradient.PowerOfOne | bidir-synth/experiments/pol_grad_24.py:110 | repeated multiplication by a discount factor of 1 leaves 1 |
| PolicyGradient.RewardToGo | bidir-synth/experiments/pol_grad_24.py:75-80 | the backward loop yields, at every step, the sum of that step's reward and all later ones |
| PolicyGradient.ToGoRecurrence | bidir-synth/experiments/pol_grad_24.py:78-79 | each reward-to-go is its reward plus the next one, the last is the last reward, and the first is the episode return |
| PolicyGradient.EndEpisode | bidir-synth/experiments/pol_grad_24.py:118-134 | a `TypeError` exactly for shaped rewards from an unfinished environment; otherwise weights of the episode length: the shaped rewards, the rewards-to-go, or the return repeated; length and return are those of the rewards used |
| TaskUtils.TwentyFourTask | bidir-synth/bidir/task_utils.py:17-18 | one input slot per number, each a single example, and a one-example target |
| TaskUtils.TwentyFourNumbers | bidir-synth/bidir/task_utils.py:10-18 | a task is read back as numbers exactly when it has one example |
| TaskUtils.TwentyFourRoundTrip | bidir-synth/bidir/task_utils.py:17-18 | reading back a twenty-four task gives its numbers and target |
| TaskUtils.ArcTask | bidir-synth/bidir/task_utils.py:22-25 | a `ValueError` for no examples; otherwise one input slot holding the input grids and a target of the output grids, in order |
| TaskUtils.ArcTaskUnzip | bidir-synth/bidir/task_utils.py:24-25 | zipping the input slot with the target gives the examples back |
| TaskUtils.ParseIdLine | bidir-synth/bidir/task_utils.py:83 | a malformed number is a `ValueError` |
| TaskUtils.JsonStripIsCharacterSet | bidir-synth/bidir/task_utils.py:83 | `rstrip(".json")` strips a character set: an id ending in one of those letters loses it too |
| TaskUtils.MapResult | bidir-synth/bidir/task_utils.py:82-85 | a comprehension whose body may raise: succeeds exactly when every element does, with the pointwise values, and otherwise carries the error of the first failing element, all earlier elements having succeeded |
| TaskUtils.ParseIdLines | bidir-synth/bidir/task_utils.py:82-85 | every line parsed in order, or the `ValueError` of a malformed line |
| TaskUtils.BuildTable | bidir-synth/bidir/task_utils.py:82-85 | the keys are the numbers that occur, each mapped to the id of its last line |
| TaskUtils.IdTable | bidir-synth/bidir/task_utils.py:80-85 | the dictionary of `num_to_id`: an error exactly when some line does not parse; otherwise later lines override earlier ones |
| TaskUtils.NumToId | bidir-synth/bidir/task_utils.py:73-86 | `ValueError` for a malformed line, `KeyError` for an absent number, otherwise the id of the number's last line |
| TaskUtils.LastIdFromEntry | bidir-synth/bidir/task_utils.py:82-86 | an id found for a number comes from a line with that number |
| TaskUtils.IdLineRoundTrip | bidir-synth/bidir/task_utils.py:80-85 | a line written as `"<n> <id>.json\n"` parses back to the number and id, provided the id has no spaces and does not end in one of the stripped letters |
| TaskUtils.NumToIdReadsTable | bidir-synth/bidir/task_utils.py:73-86 | writing a table as lines and looking a number up gives the id of its last entry |
| PyBuiltins.PyIndex | bidir-synth/rl/environment.py:140 | Python list indexing: valid exactly for `-n <= k < n`, counting from the end for negatives, else `IndexError` |
| PyBuiltins.RStrip | bidir-synth/bidir/task_utils.py:80 | the longest prefix whose removed tail consists of stripped characters |
| PyBuiltins.RStripUnique | bidir-synth/bidir/task_utils.py:80 | any prefix with those two properties is the one `rstrip` returns |
| PyBuiltins.JoinSplit | bidir-synth/bidir/task_utils.py:83 | joining the parts of a split gives the string back |
| PyBuiltins.SplitJoin | bidir-synth/bidir/task_utils.py:83 | splitting a join of separator-free parts gives the parts back |
| PyBuiltins.RIndex | bidir-synth/bidir/utils.py:35 | the last position of the character, `ValueError` when absent |
| PyBuiltins.NatToStringRoundTrip | bidir-synth/bidir/utils.py:41 | the decimal numeral of a number denotes that number |
| PyBuiltins.ParseIntRoundTrip | bidir-synth/bidir/task_utils.py:83 | `int(str(n)) == n` for every integer |
| ArcOps.TupleReturnInverts | bidir-synth/rl/arc_ops.py:9-18 | when `g` undoes `f`, the wrapped `g` maps each output of `f` to the one-element tuple of its input |
| ArcOps.TupleReturn | bidir-synth/rl/arc_ops.py:9-18 | the wrapped function returns the one-element tuple of `f(x)`; `TupleReturnInverts` states why it makes an inverse |
| ArcOps.IntConstants | bidir-synth/rl/arc_ops.py:45-46 | the integer constants in order 0..MAX_INT |
| ArcOps.IntConstantsRange | bidir-synth/rl/arc_ops.py:45-46 | an integer is a constant exactly when it is in 0..3 |
| ArcOps.ConstantValues | bidir-synth/rl/arc_ops.py:43-47 | colours, then `True`, `False`, then the integers, at their positions |
| ArcOps.ConstantValuesContent | bidir-synth/rl/arc_ops.py:43-47 | a constant is present exactly when it is one of the colours, a boolean or an integer in 0..3 |
| ArcOps.ColorConstantIn | bidir-synth/rl/arc_ops.py:43 | a colour constant is present exactly when the colour is in the enumeration |
| ArcOps.IntConstantIn | bidir-synth/rl/arc_ops.py:46-47 | an integer constant is present exactly when it is in 0..3 |
| ArcOps.ExpectsCond | bidir-synth/rl/arc_ops.py:69-75 | the mask is true exactly at the input the conditional inverse is given |
| ArcOps.CondInverseMasks | bidir-synth/rl/arc_ops.py:69-75 | one mask per conditional inverse, matching its given input |
| ArcOps.CondInverseMasksOneHot | bidir-synth/rl/arc_ops.py:69-74 | every mask has length two and exactly one `True` |
| ArcOps.AllOps | bidir-synth/rl/arc_ops.py:82 | the four groups in order: forward operations, then constants, then inverses, then conditional inverses, each group intact at its own positions |
| ArcOps.OpDictMembers | bidir-synth/rl/arc_ops.py:84-91 | once the duplicate check passes, every operation of the list is a key-value pair of `OP_DICT` under its own name |
| ArcOps.AllOpsRegistered | bidir-synth/rl/arc_ops.py:82-91 | once the duplicate check on `ALL_OPS` passes, every operation of each of the four groups is found in `OP_DICT` under its own name |
| ArcOps.NameSetSize | bidir-synth/rl/arc_ops.py:85 | the name set is never larger than the list, and equally large exactly when no two operations share a name |
| ArcOps.LastWithName | bidir-synth/rl/arc_ops.py:91 | the last operation carrying a name, present exactly when the name occurs |
| ArcOps.NameDict | bidir-synth/rl/arc_ops.py:91 | the keys are the names, each mapped to the last operation carrying it |
| ArcOps.OpDict | bidir-synth/rl/arc_ops.py:84-91 | an `AssertionError` exactly when two operations share a name; otherwise one entry per operation, each found under its own name |
| ArcOps.RegistryEntries | bidir-synth/rl/arc_ops.py:91 | with distinct names every operation is found under its own name |
| ArcOps.OpDictSound | bidir-synth/rl/arc_ops.py:91 | the keys are exactly the operation names and every value is one of the operations |
| MaximumUnop.MaxOf | ec/neo/src/org/genesys/interpreter/deepcode/MaximumUnop.java:23-24 | an element of the list that is at least every element |
| MaximumUnop.MaxOfUnique | ec/neo/src/org/genesys/interpreter/deepcode/MaximumUnop.java:23-24 | any element that is at least every element is the maximum computed |
| MaximumUnop.Apply | ec/neo/src/org/genesys/interpreter/deepcode/MaximumUnop.java:15-25 | `AssertionError` exactly for a non-list or an integer other than 256; 256 gives the empty list, the empty list gives 256, a non-empty list its maximum |
| MaximumUnop.SentinelRoundTrip | ec/neo/src/org/genesys/interpreter/deepcode/MaximumUnop.java:16-22 | applying twice to the empty list gives the empty list, and to 256 gives 256 |
| MaximumUnop.ApplySingleton | ec/neo/src/org/genesys/interpreter/deepcode/MaximumUnop.java:23-24 | a one-element list gives its element |
| SymmetryTasks.MakeGridIsBlock | bidir-synth/ec/data/ARC/data/training/synthetic_symmetry_tasks/task_creation_repeatableunit.py:79-81 | a non-empty grid built by `make_grid` is recognised by `block_inv` as that block, and every grid `block_inv` accepts is the `make_grid` of its parameters |
| SymmetryTasks.MakeGrid | bidir-synth/ec/data/ARC/data/training/synthetic_symmetry_tasks/task_creation_repeatableunit.py:79-81 | a rows-by-cols grid of the background colour; `MakeGridIsBlock` relates it to `block_inv` and `MakeSameGridIsOverlay` uses it |
| SymmetryTasks.Occurrences | bidir-synth/ec/data/ARC/data/training/synthetic_symmetry_tasks/task_creation_repeatableunit.py:89-92 | the count of each of the ten colour slots; a pixel outside Python's index range is an `IndexError` |
| SymmetryTasks.MinScan | bidir-synth/ec/data/ARC/data/training/synthetic_symmetry_tasks/task_creation_repeatableunit.py:93-100 | the corrected scan: a non-empty, strictly increasing list holding exactly the least common colours among 1..9 |
| SymmetryTasks.MinIndices | bidir-synth/ec/data/ARC/data/training/synthetic_symmetry_tasks/task_creation_repeatableunit.py:93-100 | every colour in 1..9 is listed exactly when its count is minimal among 1..9, each once, in increasing order |
| SymmetryTasks.MinIndicesAsWritten | bidir-synth/ec/data/ARC/data/training/synthetic_symmetry_tasks/task_creation_repeatableunit.py:93-100 | the candidate list exactly as the loop builds it; `MinIndicesAsWrittenRepeatsFirst` shows it is the corrected list with its first colour repeated |
| SymmetryTasks.MinScanAsWrittenDuplicatesFirst | bidir-synth/ec/data/ARC/data/training/synthetic_symmetry_tasks/task_creation_repeatableunit.py:95-100 | the scan as written yields the corrected list with its first entry repeated |
| SymmetryTasks.MinIndicesAsWrittenRepeatsFirst | bidir-synth/ec/data/ARC/data/training/synthetic_symmetry_tasks/task_creation_repeatableunit.py:93-100 | the list as written is always the corrected list with its first colour listed twice |
| SymmetryTasks.MinIndicesAsWrittenAllTied | bidir-synth/ec/data/ARC/data/training/synthetic_symmetry_tasks/task_creation_repeatableunit.py:93-100 | when colours 1..9 are tied, the list as written is `[1, 1, 2, ..., 9]` |
| SymmetryTasks.MinIndicesAreOneToNine | bidir-synth/ec/data/ARC/data/training/synthetic_symmetry_tasks/task_creation_repeatableunit.py:95-100 | a strictly increasing list of colours in 1..9 that holds all of them is `[1, ..., 9]` |
| SymmetryTasks.MinIndicesAsWrittenLeastCommon | bidir-synth/ec/data/ARC/data/training/synthetic_symmetry_tasks/task_creation_repeatableunit.py:93-100 | the list as written has one entry more than the corrected one, and every entry is a colour of least count |
| SymmetryTasks.LeastCommonColor | bidir-synth/ec/data/ARC/data/training/synthetic_symmetry_tasks/task_creation_repeatableunit.py:87-101 | an `IndexError` exactly when counting fails; otherwise a colour in 1..9 with a minimal count, drawn from the list as written |
| SymmetryTasks.LeastCommonColorPick | bidir-synth/ec/data/ARC/data/training/synthetic_symmetry_tasks/task_creation_repeatableunit.py:101 | draw `k` selects the `k`-th entry of the list as written |
| SymmetryTasks.LeastCommonColorReachesAll | bidir-synth/ec/data/ARC/data/training/synthetic_symmetry_tasks/task_creation_repeatableunit.py:101 | every least common colour is the outcome of some random draw |
| SymmetryTasks.LeastCommonColorFavoursFirst | bidir-synth/ec/data/ARC/data/training/synthetic_symmetry_tasks/task_creation_repeatableunit.py:93-101 | draws 0 and 1 both give the smallest least-common colour and draw `k` gives the `(k-1)`-th, so the smallest takes two of the draws |
| SymmetryTasks.LeastCommonColorFixed | bidir-synth/ec/data/ARC/data/training/synthetic_symmetry_tasks/task_creation_repeatableunit.py:87-101 | the corrected draw: an `IndexError` exactly when counting fails, otherwise a colour of least count |
| SymmetryTasks.LeastCommonColorFixedUniform | bidir-synth/ec/data/ARC/data/training/synthetic_symmetry_tasks/task_creation_repeatableunit.py:87-101 | the corrected draws `0..n-1` give the `n` least-common colours, each exactly once |
| SymmetryTasks.MakeSameGrid | bidir-synth/ec/data/ARC/data/training/synthetic_symmetry_tasks/task_creation_repeatableunit.py:103-116 | same shape; black cells become the given (or least common) colour, others are unchanged; fails only when no colour is given and counting fails |
| SymmetryTasks.MakeSameGridIsOverlay | bidir-synth/ec/data/ARC/data/training/synthetic_symmetry_tasks/task_creation_repeatableunit.py:103-116 | filling with a colour is overlaying the grid on a full grid of that colour |
| SymmetryTasks.Rotate90CCW | bidir-synth/ec/data/ARC/data/training/synthetic_symmetry_tasks/task_creation_repeatableunit.py:192-194 | a quarter turn swaps a non-empty grid's height and width, and cell `(i, j)` is the grid's `(j, w - 1 - i)`; `RotationsInverse` shows `rotate_90_CW` undoes it |
| SymmetryTasks.Rotate180 | bidir-synth/ec/data/ARC/data/training/synthetic_symmetry_tasks/task_creation_repeatableunit.py:196-198 | a non-empty grid keeps its shape; `Rotate180Cells` gives its cells as rows and columns reversed |
| SymmetryTasks.Rotate90CW | bidir-synth/ec/data/ARC/data/training/synthetic_symmetry_tasks/task_creation_repeatableunit.py:200-202 | a non-empty grid's height and width swap; `Rotate90CWCells` gives the cells and `RotationsInverse` shows it undoes `rotate_90_CCW` |
| SymmetryTasks.FlipDownDiagonal | bidir-synth/ec/data/ARC/data/training/synthetic_symmetry_tasks/task_creation_repeatableunit.py:204-206 | a non-empty grid's height and width swap; `FlipDownDiagonalCells` shows it is the transpose |
| SymmetryTasks.FlipUpDiagonal | bidir-synth/ec/data/ARC/data/training/synthetic_symmetry_tasks/task_creation_repeatableunit.py:208-211 | a non-empty grid's height and width swap; `FlipUpDiagonalCells` shows it is the anti-transpose |
| SymmetryTasks.MirrorTransform | bidir-synth/ec/data/ARC/data/training/synthetic_symmetry_tasks/task_creation_repeatableunit.py:225-244 | each mirror's transform; the flips keep the shape and the diagonal flips keep a square grid's shape, so `overlay` never runs off it; the `Mirror*Fixed` lemmas say when each mirror fixes a grid |
| SymmetryTasks.Rot90 | bidir-synth/ec/data/ARC/data/training/synthetic_symmetry_tasks/task_creation_repeatableunit.py:192-194 | `np.rot90`: transposed shape, cell `(i, j)` taken from `(j, w - 1 - i)` |
| SymmetryTasks.FlipUD | bidir-synth/ec/data/ARC/data/training/synthetic_symmetry_tasks/task_creation_repeatableunit.py:213-214 | rows reversed, same shape |
| SymmetryTasks.FlipLR | bidir-synth/ec/data/ARC/data/training/synthetic_symmetry_tasks/task_creation_repeatableunit.py:216-217 | columns reversed, same shape |
| SymmetryTasks.Rotate180Cells | bidir-synth/ec/data/ARC/data/training/synthetic_symmetry_tasks/task_creation_repeatableunit.py:196-198 | two quarter turns reverse both rows and columns |
| SymmetryTasks.Rotate90CWCells | bidir-synth/ec/data/ARC/data/training/synthetic_symmetry_tasks/task_creation_repeatableunit.py:200-202 | three counter-clockwise quarter turns are one clockwise quarter turn |
| SymmetryTasks.RotationsInverse | bidir-synth/ec/data/ARC/data/training/synthetic_symmetry_tasks/task_creation_repeatableunit.py:192-202 | the clockwise and counter-clockwise quarter turns undo each other |
| SymmetryTasks.FlipsAreInvolutions | bidir-synth/ec/data/ARC/data/training/synthetic_symmetry_tasks/task_creation_repeatableunit.py:213-217 | each flip undoes itself |
| SymmetryTasks.FlipDownDiagonalCells | bidir-synth/ec/data/ARC/data/training/synthetic_symmetry_tasks/task_creation_repeatableunit.py:204-206 | the down-diagonal flip is the transpose |
| SymmetryTasks.FlipUpDiagonalCells | bidir-synth/ec/data/ARC/data/training/synthetic_symmetry_tasks/task_creation_repeatableunit.py:208-211 | the up-diagonal flip is the anti-transpose |
| SymmetryTasks.OverlayWith | bidir-synth/ec/data/ARC/data/training/synthetic_symmetry_tasks/task_creation_repeatableunit.py:174-189 | the first grid's shape, each cell the transformed grid's cell if nonzero and the first grid's otherwise; `IndexError` when the transformed grid is too small |
| SymmetryTasks.OverlaySelf | bidir-synth/ec/data/ARC/data/training/synthetic_symmetry_tasks/task_creation_repeatableunit.py:174-189 | overlaying a grid with itself gives the grid back |
| SymmetryTasks.OverlayFixedIff | bidir-synth/ec/data/ARC/data/training/synthetic_symmetry_tasks/task_creation_repeatableunit.py:174-189 | for a transform that swaps cells in pairs, the overlay leaves the grid unchanged exactly when the transform does |
| SymmetryTasks.MirrorDownDiagonalFixed | bidir-synth/ec/data/ARC/data/training/synthetic_symmetry_tasks/task_creation_repeatableunit.py:225-226 | a square grid is fixed by the mirror exactly when it equals its transpose |
| SymmetryTasks.MirrorUpDiagonalFixed | bidir-synth/ec/data/ARC/data/training/synthetic_symmetry_tasks/task_creation_repeatableunit.py:228-229 | a square grid is fixed by the mirror exactly when it equals its anti-transpose |
| SymmetryTasks.MirrorHorizontalFixed | bidir-synth/ec/data/ARC/data/training/synthetic_symmetry_tasks/task_creation_repeatableunit.py:231-232 | fixed exactly when equal to its up/down flip |
| SymmetryTasks.MirrorVerticalFixed | bidir-synth/ec/data/ARC/data/training/synthetic_symmetry_tasks/task_creation_repeatableunit.py:234-235 | fixed exactly when equal to its left/right flip |
| SymmetryTasks.MirrorCascade | bidir-synth/ec/data/ARC/data/training/synthetic_symmetry_tasks/task_creation_repeatableunit.py:246-257 | the mirrors applied in order, the first error propagating; `MirrorCascadeAppend` states its composition law |
| SymmetryTasks.MirrorCascadeAppend | bidir-synth/ec/data/ARC/data/training/synthetic_symmetry_tasks/task_creation_repeatableunit.py:246-257 | the empty cascade is the identity, and the cascade of `a + b` is `a`'s followed by `b`'s |
| SymmetryTasks.CheckSymmetryWith | bidir-synth/ec/data/ARC/data/training/synthetic_symmetry_tasks/task_creation_repeatableunit.py:276-285 | `True` exactly when every listed mirror leaves the grid unchanged; `False` exactly when the first mirror that does not give the grid back succeeds with another grid; the error exactly when that first mirror raises |
| SymmetryTasks.CheckSymmetry | bidir-synth/ec/data/ARC/data/training/synthetic_symmetry_tasks/task_creation_repeatableunit.py:259-285 | over the four mirrors of `MIRRORS`: `True` when each leaves the grid unchanged, `False` at the first that changes it, and the first error raised before that |
| SymmetryTasks.CheckSymmetryEach | bidir-synth/ec/data/ARC/data/training/synthetic_symmetry_tasks/task_creation_repeatableunit.py:276-285 | the same condition, mirror by mirror |
| SymmetryTasks.CheckSymmetrySquare | bidir-synth/ec/data/ARC/data/training/synthetic_symmetry_tasks/task_creation_repeatableunit.py:276-285 | a square grid never makes `check_symmetry` raise, and it is symmetric exactly when it equals its transpose, its anti-transpose and both flips |
| SymmetryTasks.ApplyMirror | bidir-synth/ec/data/ARC/data/training/synthetic_symmetry_tasks/task_creation_repeatableunit.py:225-235 | none of the four mirrors of `MIRRORS` raises on a non-empty square grid |
| SymmetryTasks.FirstChangeShift | bidir-synth/ec/data/ARC/data/training/synthetic_symmetry_tasks/task_creation_repeatableunit.py:282-284 | when the first mirror gives the grid back, the answer for the list is the answer for the rest of it |
| SymmetryTasks.CheckSymmetryNonSquare | bidir-synth/ec/data/ARC/data/training/synthetic_symmetry_tasks/task_creation_repeatableunit.py:276-285 | on a non-empty, non-square grid `check_symmetry` raises `IndexError` (a grid with no columns is trivially symmetric) |
| SymmetryTasks.RepeatRow | bidir-synth/ec/data/ARC/data/training/synthetic_symmetry_tasks/task_creation_repeatableunit.py:356 | `row * n`: empty for `n <= 0`, otherwise `n` copies of the row |
| SymmetryTasks.Copies | bidir-synth/ec/data/ARC/data/training/synthetic_symmetry_tasks/task_creation_repeatableunit.py:357-359 | the rows repeated the given number of times |
| SymmetryTasks.TileRows | bidir-synth/ec/data/ARC/data/training/synthetic_symmetry_tasks/task_creation_repeatableunit.py:355-359 | `max(height, 1)` copies of the pattern's rows, each row repeated `width` times |
| SymmetryTasks.SubsetTile | bidir-synth/ec/data/ARC/data/training/synthetic_symmetry_tasks/task_creation_repeatableunit.py:362-369 | a top-left sub-grid with up to two rows and two columns dropped (Python slice semantics for short tiles); `IndexError` for a tile without rows |
| SymmetryTasks.Tile | bidir-synth/ec/data/ARC/data/training/synthetic_symmetry_tasks/task_creation_repeatableunit.py:352-369 | succeeds exactly for a non-empty pattern, otherwise `IndexError`; the result has `max(height, 1)·rows` rows and `width·columns` columns (0 for `width <= 0`), each less the 0–2 dropped by `subset_tile`, and every cell is the tiled pattern's cell |

## Left out

- The program search graph and the operation classes (`rl/program_search_graph.py`, `rl/operations.py`) are not part of this model. The environment sees a graph only through its value-node count, its solved flag and `actions_in_program()`. Applying an operation is a function parameter. A `SynthError` raised by an operation is taken to leave the graph as it was.
- `bidir/primitives/functions.py` is not part of this model. So the forward functions, the inverse-pair table, `FORWARD_OPS`, `inflate_cond_inv` and `color_i_to_j_cond_inv` are left out. `ArcOps` sees an operation only as a name and a kind. The registry lists are parameters of `AllOps`.
- The `Color` enumeration and its background value are not part of this model. The list of colours and the background colour are parameters.
- The kronecker mask and template construction (inverse_functions.py:156-159) are left out. They allocate `M2**N2` cells but reshape to (M2, N2), and `col_idxs[0]` raises when no block is nonzero. Only the consistency check is modelled.
- `InverseFunctions.BlockInv`: the `Color(color)` conversion (inverse_functions.py:131) is left out, and the colour is returned as an integer. In the source, a uniform grid whose colour is not a member of the `Color` enumeration raises `ValueError` there, while the model returns `Ok`. The `Color` enumeration is not part of this model.
- Python/numpy exceptions for malformed inputs are modelled where the code reaches them. Ragged arrays and non-integer cells cannot occur, because grids are rectangular integer sequences. A grid with no rows has width 0 here, whereas numpy keeps shape (0, w).
- Random choices are parameters: `random.choice` in `least_common_color` becomes a pick index, and the row and column drops in `subset_tile` become two values in 0..2.
- Of the symmetry-task generator, the plotting, occlusion, `run_n_mirrors`, `generate_*`, JSON output and timing code are left out, being random or I/O.
- The rotation mirrors `mirror_90_CCW`, `mirror_180_CCW` and `mirror_90_CW` are modelled as mirrors. They are not in `MIRRORS`, so no lemma is stated about them.
- File I/O is left out: the id file of `num_to_id` is given as its lines, `load_task`, `get_arc_task_examples` and `get_arc_grids` are omitted, and `os.path.isfile` is a set of existing paths. `lru_cache` has no observable effect and is omitted.
- `TaskUtils.ParseIdLine`: `int()` accepts an optional sign and ASCII digits between ASCII whitespace. Underscores and non-ASCII digits, which Python also accepts, are not modelled. The contract states only the error kind; the round trip on well-formed lines is `IdLineRoundTrip`.
- `PyBuiltins.ParseInt`: the same restriction on `int()`; its contract states only that failures are `ValueError`, and its meaning is given by `ParseIntRoundTrip`.
- The neural network, sampling, the loss, the optimiser, mlflow, pickle and `timing` helpers, and gym `render` are left out.
- Rewards and discount factors are modelled as mathematical reals, not floating point.
- `PyBuiltins.RStrip`: `rstrip()` with no argument strips the ASCII whitespace characters only. Python also strips Unicode whitespace such as `'\x85'`, `'\u00a0'` and `'\u2028'`, so `TaskUtils.NumToId` models id files whose lines end in ASCII whitespace.
- `SymmetryTasks.MakeSameGrid` and `SymmetryTasks.OverlayWith` build their result on `np.zeros`, which is a float array, so the source returns float grids. The model returns integer grids with the same values.
- `InverseFunctions.OverlayCondInvTop` and `InverseFunctions.OverlayCondInvBottom` are the two entry points of `OverlayCondInv`. Their results are described by `OverlayTopExact` and `OverlayBottomExact`.
- `MaximumUnop.Apply`: lists are taken to hold non-null `Integer`s. A `List` of other objects, or one holding `null`, passes the assertion at MaximumUnop.java:20. If it is non-empty, it then throws `ClassCastException` or `NullPointerException` at line 23; if it is empty, it returns 256. `JOther` stands only for values that are neither an `Integer` nor a `List`.
- `MaximumUnop.Apply`: assertions are taken to be enabled. With assertions off, an integer other than 256 would give the empty list and a non-list would fail in the cast. `Integer` is modelled as an unbounded integer, which does not change the maximum.

## Findings

| source | as written | input that shows it | evidently intended | confidence | as-written member | corrected member |
|---|---|---|---|---|---|---|
| bidir-synth/ec/data/ARC/data/training/synthetic_symmetry_tasks/task_creation_repeatableunit.py:95-100 | when a new minimum is found, `min_ind = [index]` is followed by the separate `if occurences[index]==minimum`, which appends the same index again, so the first least common colour is listed twice and `random.choice` picks it twice as often | a grid in which colours 1..9 all have the same count (for instance an all-black grid) gives `[1, 1, 2, 3, 4, 5, 6, 7, 8, 9]` | each least common colour listed once (an `elif`), so that the random choice is uniform over them | high, not executed | SymmetryTasks.LeastCommonColorFavoursFirst | SymmetryTasks.LeastCommonColorFixedUniform |

`SymmetryTasks.LeastCommonColor` and `SymmetryTasks.MakeSameGrid` draw from the list as written (`SymmetryTasks.MinIndicesAsWritten`); `SymmetryTasks.LeastCommonColorFixed` draws from the corrected `SymmetryTasks.MinIndices`. Every entry of either list is a least common colour, so `MakeSameGrid`'s contract holds for both.

=== FILE: arc_ops.dfy ===
/** The operation registry of rl/arc_ops.py: `tuple_return`, the constant
    operations, the conditioning masks of the conditional inverses, and the
    name-to-operation dictionary built after the duplicate-name check. The
    grid functions themselves (bidir/primitives/functions.py) and the `Op`
    classes (rl/operations.py) are not part of this model: an operation is its
    name and its kind. */
module ArcOps {
  import opened Wrappers

  /** `tuple_return(f)`: the same function, with its result wrapped in a 1-tuple. */
  function TupleReturn<A(!new), B>(f: A -> B): (g: A -> seq<B>)
    ensures forall x :: g(x) == [f(x)]
  {
    x => [f(x)]
  }

  /** What `tuple_return` is for: when `g` undoes `f`, `tuple_return(g)` maps
      every output of `f` to the tuple of inputs that produced it, as an
      inverse operation must (`tuple_return(rotate_ccw)` inverting
      `rotate_cw`, say). */
  lemma TupleReturnInverts<A(!new), B(!new)>(f: A -> B, g: B -> A)
    requires forall x :: g(f(x)) == x
    ensures forall x :: TupleReturn(g)(f(x)) == [x]
  {
  }

  /** The literal a `ConstantOp` introduces. Colours are given by their index
      in the `Color` enumeration, which is not part of this model. */
  datatype Constant = ColorConst(color: int) | BoolConst(b: bool) | IntConst(i: int)

  /** Which of the two inputs of a pair function a conditional inverse is given. */
  datatype Given = First | Second

  datatype OpKind =
    | ForwardKind
    | ConstantKind(value: Constant)
    | InverseKind
    | CondInverseKind(expectsCond: seq<bool>)

  /** An operation as the registry sees it: a name and a kind. */
  datatype Op = Op(name: string, kind: OpKind)

  const MaxInt: nat := 3

  /** `INT_OPS`: the integer constants `range(MAX_INT + 1)`. */
  function IntConstants(): (r: seq<Constant>)
    ensures |r| == MaxInt + 1
    ensures forall k :: 0 <= k < |r| ==> r[k] == IntConst(k)
  {
    seq(MaxInt + 1, k => IntConst(k))
  }

  /** The integer constants are exactly 0 through `MAX_INT`, each once. */
  lemma IntConstantsRange(i: int)
    ensures IntConst(i) in IntConstants() <==> 0 <= i <= MaxInt
  {
    if 0 <= i <= MaxInt {
      assert IntConstants()[i] == IntConst(i);
    }
  }

  /** `CONSTANT_OPS = COLOR_OPS + BOOL_OPS + INT_OPS`, for the colours of the
      `Color` enumeration in their declaration order. */
  function ConstantValues(colors: seq<int>): (r: seq<Constant>)
    ensures |r| == |colors| + 2 + (MaxInt + 1)
    ensures forall k :: 0 <= k < |colors| ==> r[k] == ColorConst(colors[k])
    ensures r[|colors|] == BoolConst(true) && r[|colors| + 1] == BoolConst(false)
    ensures forall k :: 0 <= k <= MaxInt ==> r[|colors| + 2 + k] == IntConst(k)
  {
    ColorConstants(colors) + [BoolConst(true), BoolConst(false)] + IntConstants()
  }

  /** Every constant is a colour of the enumeration, a boolean, or an integer
      from 0 to `MAX_INT`. */
  lemma ConstantValuesContent(colors: seq<int>, c: Constant)
    ensures c in ConstantValues(colors) <==>
      match c
      case ColorConst(color) => color in colors
      case BoolConst(_) => true
      case IntConst(i) => 0 <= i <= MaxInt
  {
    var r := ConstantValues(colors);
    match c
    case ColorConst(color) => ColorConstantIn(colors, color);
    case BoolConst(b) => assert r[if b then |colors| else |colors| + 1] == c;
    case IntConst(i) => IntConstantIn(colors, i);
  }

  /** The colour constants, in the order of the enumeration. */
  function ColorConstants(colors: seq<int>): (r: seq<Constant>)
    ensures |r| == |colors|
    ensures forall k :: 0 <= k < |colors| ==> r[k] == ColorConst(colors[k])
  {
    seq(|colors|, k requires 0 <= k < |colors| => ColorConst(colors[k]))
  }

  lemma ColorConstantIn(colors: seq<int>, color: int)
    ensures ColorConst(color) in ConstantValues(colors) <==> color in colors
  {
    var cs := ColorConstants(colors);
    assert ConstantValues(colors) == cs + [BoolConst(true), BoolConst(false)] + IntConstants();
    if color in colors {
      var k :| 0 <= k < |colors| && colors[k] == color;
      assert cs[k] == ColorConst(color);
    }
    if ColorConst(color) in cs {
      var k :| 0 <= k < |cs| && cs[k] == ColorConst(color);
      assert colors[k] == color;
    }
  }

  lemma IntConstantIn(colors: seq<int>, i: int)
    ensures IntConst(i) in ConstantValues(colors) <==> 0 <= i <= MaxInt
  {
    var cs := ColorConstants(colors);
    assert ConstantValues(colors) == cs + [BoolConst(true), BoolConst(false)] + IntConstants();
    assert IntConst(i) !in cs;
    IntConstantsRange(i);
  }

  /** The `expects_cond` mask of a conditional inverse of a pair function:
      `True` on the input it is given, `False` on the one it computes. */
  function ExpectsCond(given: Given): (mask: seq<bool>)
    ensures |mask| == 2
    ensures mask[0] <==> given == First
    ensures mask[1] <==> given == Second
  {
    match given
    case First => [true, false]
    case Second => [false, true]
  }

  /** The mask has exactly one `True`: each conditional inverse is given one input. */
  predicate OneHot(mask: seq<bool>) {
    |mask| == 2 && (mask[0] <==> !mask[1])
  }

  /** `_FUNCTION_COND_INV_PAIRS`, with the given input of each entry: the top
      and bottom inverses of `vstack_pair`, then the left and right inverses
      of `hstack_pair`. */
  const CondInverseGiven: seq<Given> := [First, Second, First, Second]

  function CondInverseMasks(): (r: seq<seq<bool>>)
    ensures |r| == |CondInverseGiven|
    ensures forall k :: 0 <= k < |r| ==> r[k] == ExpectsCond(CondInverseGiven[k])
  {
    seq(|CondInverseGiven|, k requires 0 <= k < |CondInverseGiven| => ExpectsCond(CondInverseGiven[k]))
  }

  /** Every mask of the table has length two with exactly one `True`. */
  lemma CondInverseMasksOneHot()
    ensures forall k :: 0 <= k < |CondInverseMasks()| ==> OneHot(CondInverseMasks()[k])
    ensures CondInverseMasks() == [[true, false], [false, true], [true, false], [false, true]]
  {
  }

  /** `ALL_OPS = FORWARD_OPS + CONSTANT_OPS + INV_OPS + COND_INV_OPS`. */
  function AllOps(forward: seq<Op>, constant: seq<Op>, inverse: seq<Op>, condInverse: seq<Op>): (r: seq<Op>)
    ensures |r| == |forward| + |constant| + |inverse| + |condInverse|
    ensures r[..|forward|] == forward
    ensures r[|forward|..|forward| + |constant|] == constant
    ensures r[|forward| + |constant|..|forward| + |constant| + |inverse|] == inverse
    ensures r[|r| - |condInverse|..] == condInverse
  {
    forward + constant + inverse + condInverse
  }

  // ---------------------------------------------------------------------------
  // The duplicate-name check and OP_DICT

  /** `set(op.name for op in ops)`. */
  function NameSet(ops: seq<Op>): set<string> {
    set k | 0 <= k < |ops| :: ops[k].name
  }

  /** The names of a list are those of all but its last element plus the last one's. */
  lemma NameSetSnoc(ops: seq<Op>)
    requires |ops| > 0
    ensures NameSet(ops) == NameSet(ops[..|ops| - 1]) + {ops[|ops| - 1].name}
  {
    var n := |ops|;
    var prev := ops[..n - 1];
    forall name | name in NameSet(ops) ensures name in NameSet(prev) + {ops[n - 1].name} {
      var k :| 0 <= k < n && ops[k].name == name;
      if k < n - 1 {
        assert prev[k].name == name;
      }
    }
    forall name | name in NameSet(prev) ensures name in NameSet(ops) {
      var k :| 0 <= k < n - 1 && prev[k].name == name;
      assert ops[k].name == name;
    }
  }

  /** No two operations share a name. */
  predicate DistinctNames(ops: seq<Op>) {
    forall i, j :: 0 <= i < j < |ops| ==> ops[i].name != ops[j].name
  }

  /** The condition `len(set(names)) == len(ALL_OPS)` is the same as pairwise
      distinct names, and there are never more names than operations. */
  lemma {:induction false} NameSetSize(ops: seq<Op>)
    ensures |NameSet(ops)| <= |ops|
    ensures |NameSet(ops)| == |ops| <==> DistinctNames(ops)
  {
    if |ops| > 0 {
      var n := |ops|;
      var prev := ops[..n - 1];
      var last := ops[n - 1].name;
      NameSetSize(prev);
      NameSetSnoc(ops);
      if last in NameSet(prev) {
        var k :| 0 <= k < n - 1 && prev[k].name == last;
        assert ops[k].name == ops[n - 1].name;
      } else {
        if DistinctNames(prev) {
          forall i, j | 0 <= i < j < n ensures ops[i].name != ops[j].name {
            if j < n - 1 {
              assert ops[i] == prev[i] && ops[j] == prev[j];
            } else {
              assert ops[i].name == prev[i].name;
            }
          }
        } else {
          var i, j :| 0 <= i < j < n - 1 && prev[i].name == prev[j].name;
          assert ops[i].name == ops[j].name;
        }
      }
    }
  }

  /** The index of the last operation with a given name, if any. */
  function LastWithName(ops: seq<Op>, name: string): (r: Option<nat>)
    ensures r.Some? <==> name in NameSet(ops)
    ensures r.Some? ==> r.value < |ops| && ops[r.value].name == name
    ensures r.Some? ==> forall j :: r.value < j < |ops| ==> ops[j].name != name
  {
    if |ops| == 0 then None
    else if ops[|ops| - 1].name == name then Some(|ops| - 1)
    else
      var prev := ops[..|ops| - 1];
      NameSetSnoc(ops);
      var r := LastWithName(prev, name);
      assert r.Some? ==> ops[r.value] == prev[r.value];
      r
  }

  /** A name other than the last operation's is looked up in the list without it. */
  lemma LastWithNameSnoc(ops: seq<Op>)
    requires |ops| > 0
    ensures forall name :: name in NameSet(ops[..|ops| - 1]) && name != ops[|ops| - 1].name ==>
      ops[LastWithName(ops, name).value] == ops[..|ops| - 1][LastWithName(ops[..|ops| - 1], name).value]
  {
    var prev := ops[..|ops| - 1];
    forall name | name in NameSet(prev) && name != ops[|ops| - 1].name
      ensures ops[LastWithName(ops, name).value] == prev[LastWithName(prev, name).value]
    {
      assert LastWithName(ops, name) == LastWithName(prev, name);
    }
  }

  /** `{op.name: op for op in ops}`: one key per name, later operations
      replacing earlier ones with the same name. */
  function NameDict(ops: seq<Op>): (d: map<string, Op>)
    ensures d.Keys == NameSet(ops)
    ensures forall name :: name in d ==> d[name] == ops[LastWithName(ops, name).value]
  {
    if |ops| == 0 then map[]
    else
      var n := |ops|;
      var prev := ops[..n - 1];
      var d := NameDict(prev)[ops[n - 1].name := ops[n - 1]];
      NameSetSnoc(ops);
      LastWithNameSnoc(ops);
      d
  }

  /** Loading the registry: an `AssertionError` when two operations share a
      name, and otherwise `OP_DICT`. */
  function OpDict(ops: seq<Op>): (r: Result<map<string, Op>>)
    ensures r.Err? <==> !DistinctNames(ops)
    ensures r.Err? ==> r.error == AssertionError
    ensures r.Ok? ==> |r.value| == |ops| && r.value.Keys == NameSet(ops)
    ensures r.Ok? ==> forall k :: 0 <= k < |ops| ==> r.value[ops[k].name] == ops[k]
  {
    NameSetSize(ops);
    if |NameSet(ops)| != |ops| then Err(AssertionError)
    else
      var d := NameDict(ops);
      assert |d| == |d.Keys|;
      assert forall k :: 0 <= k < |ops| ==> ops[k].name in NameSet(ops);
      RegistryEntries(ops);
      Ok(d)
  }

  /** With distinct names every operation is found under its own name. */
  lemma RegistryEntries(ops: seq<Op>)
    requires DistinctNames(ops)
    ensures forall k :: 0 <= k < |ops| ==> NameDict(ops)[ops[k].name] == ops[k]
  {
    forall k | 0 <= k < |ops| ensures NameDict(ops)[ops[k].name] == ops[k] {
      var name := ops[k].name;
      assert name in NameSet(ops);
      var j := LastWithName(ops, name).value;
      assert j == k;
    }
  }

  /** Only the names of the operations are keys of `OP_DICT`, and each key
      leads back to an operation of the list. */
  lemma OpDictSound(ops: seq<Op>, name: string)
    requires OpDict(ops).Ok?
    ensures name in OpDict(ops).value <==> exists k :: 0 <= k < |ops| && ops[k].name == name
    ensures name in OpDict(ops).value ==> OpDict(ops).value[name] in ops
  {
    if name in OpDict(ops).value {
      var k :| 0 <= k < |ops| && ops[k].name == name;
      assert OpDict(ops).value[name] == ops[k];
    }
  }

  /** Every operation of the registry list is found in `OP_DICT` under its
      own name. */
  lemma OpDictMembers(all: seq<Op>, d: map<string, Op>)
    requires OpDict(all) == Ok(d)
    ensures forall op :: op in all ==> op.name in d && d[op.name] == op
  {
    forall op | op in all ensures op.name in d && d[op.name] == op {
      var k :| 0 <= k < |all| && all[k] == op;
    }
  }

  /** Loading the whole registry: when the duplicate-name check passes, every
      operation of each of the four groups is found in `OP_DICT` under its own
      name. */
  lemma AllOpsRegistered(forward: seq<Op>, constant: seq<Op>, inverse: seq<Op>, condInverse: seq<Op>, d: map<string, Op>)
    requires OpDict(AllOps(forward, constant, inverse, condInverse)) == Ok(d)
    ensures forall op :: op in forward ==> op.name in d && d[op.name] == op
    ensures forall op :: op in constant ==> op.name in d && d[op.name] == op
    ensures forall op :: op in inverse ==> op.name in d && d[op.name] == op
    ensures forall op :: op in condInverse ==> op.name in d && d[op.name] == op
  {
    OpDictMembers(AllOps(forward, constant, inverse, condInverse), d);
  }
}

=== FILE: environment.dfy ===
/** The synthesis environment of rl/environment.py (`SynthEnv`): an episode
    of actions on a program search graph, with a step budget, per-step rewards
    and the after-the-fact reward attribution used for training.

    The program search graph and the operations are not part of this model:
    a graph is abstracted to the three things the environment reads from it
    (how many value nodes it has, whether it is solved, and the action steps of
    the solving program), and applying an operation is a function parameter. */
module Environment {
  import opened Wrappers
  import opened PyBuiltins

  /** What the environment observes of a `ProgramSearchGraph`. `program` is
      `actions_in_program()`, which may be `None`. */
  datatype Graph = Graph(valueCount: nat, solved: bool, program: Option<seq<nat>>)

  /** `op.apply_op(psg, arg_nodes, action_count)` for the operation at a given
      position: the graph after the operation, or the exception it raised. A
      raised `SynthError` leaves the graph as it was. */
  type Applier = (nat, Graph, seq<nat>, nat) -> Result<Graph>

  /** The constructor arguments; `maxActions == -1` means no step budget. */
  datatype Config = Config(
    numOps: nat,
    maxActions: int,
    solveReward: int,
    synthErrorPenalty: int,
    timeoutPenalty: int)

  /** The defaults of `SynthEnv.__init__`. */
  function DefaultConfig(numOps: nat): (c: Config)
    ensures c.numOps == numOps && c.maxActions == 100 && c.solveReward == 100
    ensures c.synthErrorPenalty == -1 && c.timeoutPenalty == 0
  {
    Config(numOps, 100, 100, -1, 0)
  }

  datatype Env = Env(config: Config, actionCount: nat, synthErrorSteps: set<nat>, graph: Graph)

  datatype Action = Action(opIdx: int, argIdxs: seq<int>)

  /** The observation, reward and done flag `step` returns, with the new state. */
  datatype StepResult = StepResult(env: Env, reward: int, done: bool)

  /** Every recorded synthesis-error step is a step already taken. */
  predicate WellFormed(env: Env) {
    forall s :: s in env.synthErrorSteps ==> s < env.actionCount
  }

  /** `reset()`: a fresh graph for a newly sampled task, no actions, no errors.
      `start` is `ProgramSearchGraph(task_sampler())`. */
  function Reset(env: Env, start: Graph): (r: Env)
    ensures WellFormed(r)
    ensures r.config == env.config && r.graph == start
    ensures r.actionCount == 0 && r.synthErrorSteps == {}
  {
    Env(env.config, 0, {}, start)
  }

  /** `SynthEnv(ops, task, task_sampler, ...)`: exactly one of a fixed task and
      a task sampler must be given (an `AssertionError` otherwise); the
      constructor then resets. `start` is the graph of the first task. */
  function Init<T, S>(config: Config, task: Option<T>, sampler: Option<S>, start: Graph): (r: Result<Env>)
    ensures r.Ok? <==> task.Some? != sampler.Some?
    ensures r.Err? ==> r.error == AssertionError
    ensures r.Ok? ==> WellFormed(r.value) && r.value.config == config && r.value.graph == start
    ensures r.Ok? ==> r.value.actionCount == 0 && r.value.synthErrorSteps == {}
  {
    if task.Some? && sampler.Some? then Err(AssertionError)
    else if task.None? && sampler.None? then Err(AssertionError)
    else Ok(Reset(Env(config, 0, {}, start), start))
  }

  /** `done()`: the step budget is used up, or the task is solved. */
  predicate Done(env: Env) {
    (env.config.maxActions != -1 && env.actionCount >= env.config.maxActions) || env.graph.solved
  }

  /** The positions that `tuple(nodes[k] for k in ks)` reads. */
  function ArgPositions(n: nat, ks: seq<int>): (r: Result<seq<nat>>)
    ensures r.Ok? <==> forall k :: 0 <= k < |ks| ==> -(n as int) <= ks[k] < n
    ensures r.Err? ==> r.error == IndexError
    ensures r.Ok? ==> |r.value| == |ks| && forall k :: 0 <= k < |ks| ==> Ok(r.value[k]) == PyIndex(n, ks[k])
  {
    if |ks| == 0 then Ok([])
    else
      var p :- PyIndex(n, ks[0]);
      var ps :- ArgPositions(n, ks[1..]);
      assert forall k :: 1 <= k < |ks| ==> ks[k] == ks[1..][k - 1];
      Ok([p] + ps)
  }

  /** The `try` block of `step`: look the operation and the argument nodes up
      (an `IndexError` there is not caught) and apply the operation. */
  function Attempt(env: Env, apply: Applier, action: Action): (r: Result<Graph>)
    ensures PyIndex(env.config.numOps, action.opIdx).Err? ==> r == Err(IndexError)
    ensures ArgPositions(env.graph.valueCount, action.argIdxs).Err? ==> r == Err(IndexError)
    ensures PyIndex(env.config.numOps, action.opIdx).Ok? && ArgPositions(env.graph.valueCount, action.argIdxs).Ok? ==>
      r == apply(PyIndex(env.config.numOps, action.opIdx).value, env.graph,
                 ArgPositions(env.graph.valueCount, action.argIdxs).value, env.actionCount)
  {
    var op :- PyIndex(env.config.numOps, action.opIdx);
    var args :- ArgPositions(env.graph.valueCount, action.argIdxs);
    apply(op, env.graph, args, env.actionCount)
  }

  /** `step(action)`. A `SynthError` from the attempt is caught: the step is
      recorded as a synthesis error and earns the penalty. Any other exception
      escapes. The solve reward then overrides, and otherwise the timeout
      penalty applies when the count equals the budget before the increment. */
  function Step(env: Env, apply: Applier, action: Action): (r: Result<StepResult>)
    ensures r.Err? <==> Attempt(env, apply, action).Err? && Attempt(env, apply, action).error != SynthError
    ensures r.Err? ==> r.error == Attempt(env, apply, action).error
    ensures r.Ok? ==> r.value.env.config == env.config
    ensures r.Ok? ==> r.value.env.actionCount == env.actionCount + 1
    ensures r.Ok? ==> r.value.done == Done(r.value.env)
    ensures r.Ok? && Attempt(env, apply, action).Ok? ==>
      r.value.env.graph == Attempt(env, apply, action).value && r.value.env.synthErrorSteps == env.synthErrorSteps
    ensures r.Ok? && Attempt(env, apply, action).Err? ==>
      r.value.env.graph == env.graph && r.value.env.synthErrorSteps == env.synthErrorSteps + {env.actionCount}
    ensures r.Ok? ==>
      r.value.reward == (
        if r.value.env.graph.solved then env.config.solveReward
        else if env.actionCount == env.config.maxActions then env.config.timeoutPenalty
        else if Attempt(env, apply, action).Err? then env.config.synthErrorPenalty
        else 0)
  {
    var (graph, errors, reward) :=
      match Attempt(env, apply, action)
      case Ok(g) => (g, env.synthErrorSteps, 0)
      case Err(SynthError) => (env.graph, env.synthErrorSteps + {env.actionCount}, env.config.synthErrorPenalty)
      case Err(e) => (env.graph, env.synthErrorSteps, 0);
    if Attempt(env, apply, action).Err? && Attempt(env, apply, action).error != SynthError then
      Err(Attempt(env, apply, action).error)
    else
      var reward' :=
        if graph.solved then env.config.solveReward
        else if env.actionCount == env.config.maxActions then env.config.timeoutPenalty
        else reward;
      var env' := Env(env.config, env.actionCount + 1, errors, graph);
      Ok(StepResult(env', reward', Done(env')))
  }

  /** A step keeps every recorded error step among the steps taken, and it
      records the step just taken exactly when that step raised `SynthError`. */
  lemma StepPreservesWellFormed(env: Env, apply: Applier, action: Action)
    requires WellFormed(env)
    requires Step(env, apply, action).Ok?
    ensures WellFormed(Step(env, apply, action).value.env)
    ensures env.actionCount in Step(env, apply, action).value.env.synthErrorSteps <==>
      Attempt(env, apply, action) == Err(SynthError)
  {
  }

  /** The timeout penalty is never paid inside a running episode: it needs the
      count to equal the budget before the increment, and then the episode was
      already over. So with a budget of `n` steps the `n`-th step, the one
      after which `done` first holds, earns no timeout penalty. */
  lemma TimeoutPenaltyOnlyAfterDone(env: Env, apply: Applier, action: Action)
    requires !Done(env)
    requires Step(env, apply, action).Ok?
    ensures Step(env, apply, action).value.reward ==
      if Step(env, apply, action).value.env.graph.solved then env.config.solveReward
      else if Attempt(env, apply, action).Err? then env.config.synthErrorPenalty
      else 0
  {
  }

  /** The `n`-th step of an episode with budget `n` reports `done`, and it is
      paid like any other step: no timeout penalty. */
  lemma LastBudgetedStep(env: Env, apply: Applier, action: Action)
    requires env.config.maxActions >= 1 && env.actionCount == env.config.maxActions - 1
    requires !env.graph.solved
    requires Step(env, apply, action).Ok?
    ensures Step(env, apply, action).value.done
    ensures !Step(env, apply, action).value.env.graph.solved ==>
      Step(env, apply, action).value.reward == (if Attempt(env, apply, action).Err? then env.config.synthErrorPenalty else 0)
  {
  }

  /** The states a sequence of actions passes through, ending at the first
      exception. */
  function Run(env: Env, apply: Applier, actions: seq<Action>): Result<Env>
    decreases |actions|
  {
    if |actions| == 0 then Ok(env)
    else
      var s :- Step(env, apply, actions[0]);
      Run(s.env, apply, actions[1..])
  }

  /** Each step of a run adds one to the count and keeps the state well formed. */
  lemma {:induction false} RunCounts(env: Env, apply: Applier, actions: seq<Action>)
    requires WellFormed(env)
    requires Run(env, apply, actions).Ok?
    ensures Run(env, apply, actions).value.actionCount == env.actionCount + |actions|
    ensures WellFormed(Run(env, apply, actions).value)
    ensures Run(env, apply, actions).value.config == env.config
    decreases |actions|
  {
    if |actions| > 0 {
      StepPreservesWellFormed(env, apply, actions[0]);
      RunCounts(Step(env, apply, actions[0]).value.env, apply, actions[1..]);
    }
  }

  /** An episode with a budget ends after at most that many steps. */
  lemma BudgetEndsEpisode(env: Env, apply: Applier, start: Graph, actions: seq<Action>)
    requires env.config.maxActions >= 0
    requires |actions| >= env.config.maxActions
    requires Run(Reset(env, start), apply, actions).Ok?
    ensures Done(Run(Reset(env, start), apply, actions).value)
  {
    RunCounts(Reset(env, start), apply, actions);
  }

  /** Under the default settings an episode started by `reset` is over exactly
      when 100 actions have been taken or the task is solved. */
  lemma DefaultEpisodeLength(env: Env, apply: Applier, start: Graph, actions: seq<Action>, numOps: nat)
    requires env.config == DefaultConfig(numOps)
    requires Run(Reset(env, start), apply, actions).Ok?
    ensures var final := Run(Reset(env, start), apply, actions).value;
      Done(final) <==> |actions| >= 100 || final.graph.solved
  {
    RunCounts(Reset(env, start), apply, actions);
  }

  // ---------------------------------------------------------------------------
  // episode_rewards

  /** The reward list before the solve reward is handed out: -1 at every
      synthesis-error step, 0 elsewhere. */
  function BaseRewards(count: nat, errors: set<nat>): (r: seq<real>)
    ensures |r| == count
    ensures forall i :: 0 <= i < count ==> r[i] == (if i in errors then -1.0 else 0.0)
  {
    seq(count, i requires 0 <= i < count => if i in errors then -1.0 else 0.0)
  }

  /** The loop over `action_steps`: each step must not be a synthesis-error
      step (`assert`) and must index the list; it receives `share`. */
  function Attribute(rewards: seq<real>, steps: seq<nat>, errors: set<nat>, share: real): (r: Result<seq<real>>)
    ensures r.Ok? <==> forall k :: 0 <= k < |steps| ==> steps[k] !in errors && steps[k] < |rewards|
    ensures r.Err? ==> r.error in {AssertionError, IndexError}
    ensures r.Err? && (forall k :: 0 <= k < |steps| ==> steps[k] < |rewards|) ==> r.error == AssertionError
    ensures r.Err? && (forall k :: 0 <= k < |steps| ==> steps[k] !in errors) ==> r.error == IndexError
    ensures r.Ok? ==> |r.value| == |rewards|
    ensures r.Ok? ==> forall i :: 0 <= i < |rewards| ==> r.value[i] == (if i in steps then share else rewards[i])
    decreases |steps|
  {
    if |steps| == 0 then Ok(rewards)
    else if steps[0] in errors then Err(AssertionError)
    else if steps[0] >= |rewards| then Err(IndexError)
    else
      var r := Attribute(rewards[steps[0] := share], steps[1..], errors, share);
      assert forall k :: 1 <= k < |steps| ==> steps[k] == steps[1..][k - 1];
      assert forall i :: i in steps <==> i == steps[0] || i in steps[1..];
      r
  }

  /** `episode_rewards()`: `None` before the episode is done; then the base
      rewards, and, when solved, the solve reward split evenly over the steps of
      the solving program. */
  function EpisodeRewards(env: Env): (r: Result<Option<seq<real>>>)
    ensures r == Ok(None) <==> !Done(env)
    ensures r.Err? ==> env.graph.solved && r.error in {AssertionError, IndexError}
    ensures env.graph.solved && env.graph.program.None? ==> r == Err(AssertionError)
    ensures Done(env) && env.graph.solved && env.graph.program.Some? ==>
      (r.Ok? <==> forall k :: 0 <= k < |env.graph.program.value| ==>
         env.graph.program.value[k] !in env.synthErrorSteps && env.graph.program.value[k] < env.actionCount)
    ensures r.Ok? && r.value.Some? ==> |r.value.value| == env.actionCount
    ensures r.Ok? && r.value.Some? && !env.graph.solved ==> r.value.value == BaseRewards(env.actionCount, env.synthErrorSteps)
    ensures r.Ok? && r.value.Some? && env.graph.solved ==>
      && env.graph.program.Some?
      && (forall k :: 0 <= k < |env.graph.program.value| ==>
            env.graph.program.value[k] < env.actionCount && env.graph.program.value[k] !in env.synthErrorSteps)
      && forall i :: 0 <= i < env.actionCount ==>
           r.value.value[i] == (if i in env.graph.program.value then Share(env) else BaseRewards(env.actionCount, env.synthErrorSteps)[i])
  {
    if !Done(env) then Ok(None)
    else
      var rewards := BaseRewards(env.actionCount, env.synthErrorSteps);
      if env.graph.solved then
        if env.graph.program.None? then Err(AssertionError)
        else
          var attributed :- Attribute(rewards, env.graph.program.value, env.synthErrorSteps, Share(env));
          Ok(Some(attributed))
      else Ok(Some(rewards))
  }

  /** `solve_reward / len(action_steps)`, the part of the solve reward each step
      of the program receives (unused when the program is empty). */
  function Share(env: Env): real
    requires env.graph.program.Some?
  {
    var n := |env.graph.program.value|;
    if n == 0 then 0.0 else env.config.solveReward as real / n as real
  }

  function SumRewards(r: seq<real>): real {
    if |r| == 0 then 0.0 else SumRewards(r[..|r| - 1]) + r[|r| - 1]
  }

  /** An unsolved finished episode loses exactly one point per synthesis-error step. */
  lemma UnsolvedRewardsSum(env: Env)
    requires WellFormed(env) && Done(env) && !env.graph.solved
    ensures EpisodeRewards(env).Ok? && EpisodeRewards(env).value.Some?
    ensures SumRewards(EpisodeRewards(env).value.value) == -(|env.synthErrorSteps| as real)
  {
    BaseRewardsSum(env.actionCount, env.synthErrorSteps);
  }

  /** A solved finished episode whose program steps were all taken and did not
      raise pays the solve reward out in full over the program's distinct
      steps, and still loses one point per synthesis-error step. */
  lemma SolvedRewardsSum(env: Env)
    requires WellFormed(env) && Done(env) && env.graph.solved && env.graph.program.Some?
    requires forall k :: 0 <= k < |env.graph.program.value| ==>
      env.graph.program.value[k] !in env.synthErrorSteps && env.graph.program.value[k] < env.actionCount
    ensures EpisodeRewards(env).Ok? && EpisodeRewards(env).value.Some?
    ensures SumRewards(EpisodeRewards(env).value.value)
      == Repeated(Share(env), |Elements(env.graph.program.value)|) - (|env.synthErrorSteps| as real)
    ensures Distinct(env.graph.program.value) && |env.graph.program.value| > 0 ==>
      SumRewards(EpisodeRewards(env).value.value) == env.config.solveReward as real - (|env.synthErrorSteps| as real)
  {
    var p := env.graph.program.value;
    var paid := Elements(p);
    SolvedRewardsArePaid(env);
    PaidRewardsSum(env.actionCount, env.synthErrorSteps, paid, Share(env));
    if Distinct(p) && |p| > 0 {
      DistinctElements(p);
      RepeatedShare(env.config.solveReward as real, |p|);
    }
  }

  /** The rewards of a solved episode, position by position. */
  lemma SolvedRewardsArePaid(env: Env)
    requires WellFormed(env) && Done(env) && env.graph.solved && env.graph.program.Some?
    requires forall k :: 0 <= k < |env.graph.program.value| ==>
      env.graph.program.value[k] !in env.synthErrorSteps && env.graph.program.value[k] < env.actionCount
    ensures EpisodeRewards(env).Ok? && EpisodeRewards(env).value.Some?
    ensures EpisodeRewards(env).value.value
      == PaidRewards(env.actionCount, env.synthErrorSteps, Elements(env.graph.program.value), Share(env))
  {
    var p := env.graph.program.value;
    var paid := Elements(p);
    var r := EpisodeRewards(env).value.value;
    forall i | 0 <= i < env.actionCount
      ensures r[i] == PaidRewards(env.actionCount, env.synthErrorSteps, paid, Share(env))[i]
    {
      assert (i in p) == (i in paid);
    }
  }

  /** The positions a program lists, as a set. */
  function Elements(p: seq<nat>): set<nat> {
    set k | 0 <= k < |p| :: p[k]
  }

  predicate Distinct(p: seq<nat>) {
    forall i, j :: 0 <= i < j < |p| ==> p[i] != p[j]
  }

  lemma {:induction false} DistinctElements(p: seq<nat>)
    requires Distinct(p)
    ensures |Elements(p)| == |p|
  {
    if |p| > 0 {
      var prev := p[..|p| - 1];
      assert Distinct(prev);
      DistinctElements(prev);
      assert Elements(p) == Elements(prev) + {p[|p| - 1]} by {
        forall x | x in Elements(p) ensures x in Elements(prev) + {p[|p| - 1]} {
          var k :| 0 <= k < |p| && p[k] == x;
          if k < |p| - 1 {
            assert prev[k] == x;
          }
        }
        forall x | x in Elements(prev) ensures x in Elements(p) {
          var k :| 0 <= k < |prev| && prev[k] == x;
          assert p[k] == x;
        }
      }
      forall k | 0 <= k < |prev| ensures prev[k] != p[|p| - 1] {
        assert prev[k] == p[k];
      }
    }
  }

  /** The reward list of a solved episode, described by position: `share` at
      the paid steps, -1 at the other error steps, 0 elsewhere. */
  function PaidRewards(count: nat, errors: set<nat>, paid: set<nat>, share: real): (r: seq<real>)
    ensures |r| == count
  {
    seq(count, i requires 0 <= i < count => if i in paid then share else if i in errors then -1.0 else 0.0)
  }

  lemma {:induction false} PaidRewardsSum(count: nat, errors: set<nat>, paid: set<nat>, share: real)
    requires forall s :: s in errors ==> s < count
    requires forall s :: s in paid ==> s < count && s !in errors
    ensures SumRewards(PaidRewards(count, errors, paid, share)) == Repeated(share, |paid|) - (|errors| as real)
  {
    if count > 0 {
      var last := count - 1;
      PaidRewardsStep(count, errors, paid, share);
      PaidRewardsSum(count - 1, errors - {last}, paid - {last}, share);
      RemoveCard(errors, last);
      RemoveCard(paid, last);
    } else {
      assert paid == {} && errors == {};
    }
  }

  /** The sum of a reward list is the sum without its last step plus that step's reward. */
  lemma PaidRewardsStep(count: nat, errors: set<nat>, paid: set<nat>, share: real)
    requires count > 0
    ensures SumRewards(PaidRewards(count, errors, paid, share))
      == SumRewards(PaidRewards(count - 1, errors - {count - 1}, paid - {count - 1}, share))
         + (if count - 1 in paid then share else if count - 1 in errors then -1.0 else 0.0)
  {
    var r := PaidRewards(count, errors, paid, share);
    assert r[..count - 1] == PaidRewards(count - 1, errors - {count - 1}, paid - {count - 1}, share);
  }

  lemma RemoveCard(s: set<nat>, x: nat)
    ensures x in s ==> |s - {x}| == |s| - 1
    ensures x !in s ==> s - {x} == s
  {
  }

  /** `x` added up `n` times. */
  function Repeated(x: real, n: nat): real {
    if n == 0 then 0.0 else Repeated(x, n - 1) + x
  }

  lemma {:induction false} RepeatedIsProduct(x: real, n: nat)
    ensures Repeated(x, n) == x * (n as real)
  {
    if n > 0 {
      RepeatedIsProduct(x, n - 1);
    }
  }

  /** Handing `total / n` to each of `n` steps hands out `total`. */
  lemma RepeatedShare(total: real, n: nat)
    requires n > 0
    ensures Repeated(total / n as real, n) == total
  {
    RepeatedIsProduct(total / n as real, n);
    ShareTimesCount(total, n);
  }

  lemma ShareTimesCount(total: real, n: nat)
    requires n > 0
    ensures (total / n as real) * (n as real) == total
  {
  }

  lemma {:induction false} BaseRewardsSum(count: nat, errors: set<nat>)
    requires forall s :: s in errors ==> s < count
    ensures SumRewards(BaseRewards(count, errors)) == -(|errors| as real)
  {
    if count > 0 {
      var r := BaseRewards(count, errors);
      var last := count - 1;
      var errors' := errors - {last};
      assert r[..count - 1] == BaseRewards(count - 1, errors');
      BaseRewardsSum(count - 1, errors');
      if last in errors {
        assert errors == errors' + {last};
      } else {
        assert errors' == errors;
      }
    }
  }
}

=== FILE: grids.dfy ===
/** Rectangular integer grids, the values ARC tasks are made of (a numpy 2-D
    array in the source), and the few grid operations several source files share. */
module Grids {

  predicate Rect(g: seq<seq<int>>) {
    forall i :: 0 <= i < |g| ==> |g[i]| == |g[0]|
  }

  /** A grid is a sequence of rows of equal length. A grid with no rows has
      width 0 (numpy would also remember a width for a 0-row array). */
  type Grid = g: seq<seq<int>> | Rect(g) witness []

  function Width(g: Grid): nat {
    if |g| == 0 then 0 else |g[0]|
  }

  predicate SameShape(a: Grid, b: Grid) {
    |a| == |b| && Width(a) == Width(b)
  }

  predicate InBounds(g: Grid, i: int, j: int) {
    0 <= i < |g| && 0 <= j < Width(g)
  }

  /** `np.full((h, w), v)`. */
  function Full(h: nat, w: nat, v: int): (g: Grid)
    ensures |g| == h && (h > 0 ==> Width(g) == w)
    ensures forall i, j :: 0 <= i < h && 0 <= j < w ==> g[i][j] == v
  {
    seq(h, i => seq(w, j => v))
  }

  /** Every cell of `g` holds `v`. */
  predicate Uniform(g: Grid, v: int) {
    forall i, j :: 0 <= i < |g| && 0 <= j < Width(g) ==> g[i][j] == v
  }

  /** The overlay of two equally shaped grids: a cell of `upper` that is not the
      background colour `bg` hides the cell of `lower` beneath it. */
  function Overlay(upper: Grid, lower: Grid, bg: int): (g: Grid)
    requires SameShape(upper, lower)
    ensures SameShape(g, upper)
    ensures forall i, j :: InBounds(g, i, j) ==>
      g[i][j] == (if upper[i][j] != bg then upper[i][j] else lower[i][j])
  {
    seq(|upper|, i requires 0 <= i < |upper| =>
      seq(Width(upper), j requires 0 <= j < Width(upper) =>
        if upper[i][j] != bg then upper[i][j] else lower[i][j]))
  }

  /** The `h` by `w` sub-grid whose top-left cell is `(r0, c0)`. */
  function SubGrid(g: Grid, r0: nat, c0: nat, h: nat, w: nat): (s: Grid)
    requires r0 + h <= |g| && c0 + w <= Width(g)
    ensures |s| == h && (h > 0 ==> Width(s) == w)
    ensures forall a, b :: 0 <= a < h && 0 <= b < w ==> s[a][b] == g[r0 + a][c0 + b]
  {
    seq(h, a requires 0 <= a < h => g[r0 + a][c0..c0 + w])
  }
}

=== FILE: inverse_functions.dfy ===
/** Exact and conditional inverses of the grid primitives
    (bidir/primitives/inverse_functions.py). Each inverse either returns a
    pre-image of its output under the forward primitive or raises; the
    contracts below say exactly when it raises and that a returned pre-image
    really maps back to the output. */
module InverseFunctions {
  import opened Wrappers
  import opened PyBuiltins
  import opened Grids

  // ---------------------------------------------------------------------------
  // The two assertion helpers

  /** `cond_assert`: raises `SynthError` exactly when the condition is false. */
  function CondAssert(condition: bool): (r: Outcome)
    ensures r.Pass? <==> condition
    ensures r.Fail? ==> r.error == SynthError
  {
    if condition then Pass else Fail(SynthError)
  }

  /** `inv_assert_equal`: raises `SynthError` exactly when the two values differ
      (for arrays, `np.array_equal`: same shape and same cells). */
  function InvAssertEqual<T(==)>(first: T, second: T): (r: Outcome)
    ensures r.Pass? <==> first == second
    ensures r.Fail? ==> r.error == SynthError
  {
    if first == second then Pass else Fail(SynthError)
  }

  // ---------------------------------------------------------------------------
  // The forward stacking primitives the conditional inverses undo.
  // (bidir/primitives/functions.py is not part of this model; these are
  // numpy's vstack/hstack of two grids.)

  predicate Stackable(top: Grid, bottom: Grid) {
    |top| == 0 || |bottom| == 0 || Width(top) == Width(bottom)
  }

  function VStackPair(top: Grid, bottom: Grid): (g: Grid)
    requires Stackable(top, bottom)
    ensures |g| == |top| + |bottom|
  {
    assert forall i :: 0 <= i < |top + bottom| ==> |(top + bottom)[i]| == |(top + bottom)[0]| by {
      forall i | 0 <= i < |top + bottom|
        ensures |(top + bottom)[i]| == |(top + bottom)[0]|
      {
        if i >= |top| {
          assert (top + bottom)[i] == bottom[i - |top|];
        }
      }
    }
    top + bottom
  }

  /** The columns `lo..hi` of every row. */
  function Cols(g: Grid, lo: nat, hi: nat): (s: Grid)
    requires lo <= hi <= Width(g)
    ensures |s| == |g| && (|g| > 0 ==> Width(s) == hi - lo)
  {
    seq(|g|, i requires 0 <= i < |g| => g[i][lo..hi])
  }

  function HStackPair(left: Grid, right: Grid): (g: Grid)
    requires |left| == |right|
    ensures |g| == |left| && (|g| > 0 ==> Width(g) == Width(left) + Width(right))
  {
    seq(|left|, i requires 0 <= i < |left| => left[i] + right[i])
  }

  // ---------------------------------------------------------------------------
  // vstack_pair / hstack_pair conditional inverses

  /** `vstack_pair_cond_inv_top`: given the stacked grid and its top part,
      recover the bottom part. Both bounds of the row split follow Python slicing. */
  function VStackCondInvTop(out: Grid, top: Grid): (r: Result<Grid>)
    ensures r.Ok? <==> Width(top) == Width(out) && |top| <= |out| && out[..|top|] == top
    ensures r.Err? ==> r.error == SynthError
    ensures r.Ok? ==> Stackable(top, r.value) && VStackPair(top, r.value) == out
  {
    if Width(out) != Width(top) then Err(SynthError)
    else
      var k := SliceBound(|out|, |top|);
      if out[..k] != top then Err(SynthError)
      else
        assert out == out[..k] + out[k..];
        Ok(out[k..])
  }

  /** `vstack_pair_cond_inv_bottom`: given the stacked grid and its bottom part,
      recover the top part. The split row `out_h - bottom_h` may be negative,
      which Python slicing counts from the end. */
  function VStackCondInvBottom(out: Grid, bottom: Grid): (r: Result<Grid>)
    ensures r.Ok? <==>
      Width(bottom) == Width(out) && |bottom| <= |out| && out[|out| - |bottom|..] == bottom
    ensures r.Err? ==> r.error == SynthError
    ensures r.Ok? ==> Stackable(r.value, bottom) && VStackPair(r.value, bottom) == out
  {
    if Width(out) != Width(bottom) then Err(SynthError)
    else
      var k := SliceBound(|out|, |out| - |bottom|);
      if out[k..] != bottom then Err(SynthError)
      else
        assert out == out[..k] + out[k..];
        Ok(out[..k])
  }

  /** `hstack_pair_cond_inv_left`: given the side-by-side grid and its left part,
      recover the right part. */
  function HStackCondInvLeft(out: Grid, left: Grid): (r: Result<Grid>)
    ensures r.Ok? <==>
      |left| == |out| && Width(left) <= Width(out) && Cols(out, 0, Width(left)) == left
    ensures r.Err? ==> r.error == SynthError
    ensures r.Ok? ==> |r.value| == |left| && HStackPair(left, r.value) == out
  {
    if |out| != |left| then Err(SynthError)
    else
      var k := SliceBound(Width(out), Width(left));
      if Cols(out, 0, k) != left then Err(SynthError)
      else
        var right := Cols(out, k, Width(out));
        assert forall i :: 0 <= i < |out| ==> out[i] == left[i] + right[i] by {
          forall i | 0 <= i < |out| ensures out[i] == left[i] + right[i] {
            assert out[i] == out[i][..k] + out[i][k..];
          }
        }
        Ok(right)
  }

  /** `hstack_pair_cond_inv_right`: given the side-by-side grid and its right part,
      recover the left part. The split column `out_w - right_w` may be negative. */
  function HStackCondInvRight(out: Grid, right: Grid): (r: Result<Grid>)
    ensures r.Ok? <==>
      |right| == |out| && Width(right) <= Width(out)
      && Cols(out, Width(out) - Width(right), Width(out)) == right
    ensures r.Err? ==> r.error == SynthError
    ensures r.Ok? ==> |r.value| == |right| && HStackPair(r.value, right) == out
  {
    if |out| != |right| then Err(SynthError)
    else
      var k := SliceBound(Width(out), Width(out) - Width(right));
      if Cols(out, k, Width(out)) != right then Err(SynthError)
      else
        var left := Cols(out, 0, k);
        assert forall i :: 0 <= i < |out| ==> out[i] == left[i] + right[i] by {
          forall i | 0 <= i < |out| ensures out[i] == left[i] + right[i] {
            assert out[i] == out[i][..k] + out[i][k..];
          }
        }
        Ok(left)
  }

  /** Conditional-inverse exactness for vertical stacking: given the true top
      part, the inverse recovers exactly the bottom part that was stacked. */
  lemma VStackRoundTrip(top: Grid, bottom: Grid)
    requires Width(top) == Width(bottom)
    ensures VStackCondInvTop(VStackPair(top, bottom), top) == Ok(bottom)
    ensures VStackCondInvBottom(VStackPair(top, bottom), bottom) == Ok(top)
  {
    var out := VStackPair(top, bottom);
    assert out[..|top|] == top;
    assert out[|out| - |bottom|..] == bottom;
  }

  /** Conditional-inverse exactness for horizontal stacking. */
  lemma HStackRoundTrip(left: Grid, right: Grid)
    requires |left| == |right|
    ensures HStackCondInvLeft(HStackPair(left, right), left) == Ok(right)
    ensures HStackCondInvRight(HStackPair(left, right), right) == Ok(left)
  {
    var out := HStackPair(left, right);
    if |out| > 0 {
      forall i | 0 <= i < |out|
        ensures out[i][0..Width(left)] == left[i] && out[i][Width(left)..Width(out)] == right[i]
      {
        assert |left[i]| == Width(left) && |right[i]| == Width(right);
        assert out[i] == left[i] + right[i];
        assert |out[i]| == Width(out);
      }
      assert Width(out) - Width(right) == Width(left);
      assert Cols(out, 0, Width(left)) == left;
      assert Cols(out, Width(out) - Width(right), Width(out)) == right;
      assert Cols(out, Width(left), Width(out)) == right;
      assert Cols(out, 0, Width(out) - Width(right)) == left;
    }
  }

  // ---------------------------------------------------------------------------
  // block

  datatype BlockParams = BlockParams(height: nat, width: nat, color: int)

  /** `block_inv`, the exact inverse of `block(h, w, c) == np.full((h, w), c)`:
      reading `grid[0, 0]` of an empty grid is an `IndexError`, and a grid that
      is not one colour throughout is a `SynthError`. */
  function BlockInv(grid: Grid): (r: Result<BlockParams>)
    ensures r == Err(IndexError) <==> |grid| == 0 || Width(grid) == 0
    ensures r.Err? && |grid| > 0 && Width(grid) > 0 ==> r.error == SynthError
    ensures r.Ok? <==> |grid| > 0 && Width(grid) > 0 && Uniform(grid, grid[0][0])
    ensures r.Ok? ==> r.value == BlockParams(|grid|, Width(grid), grid[0][0])
    ensures r.Ok? ==> Full(r.value.height, r.value.width, r.value.color) == grid
  {
    if |grid| == 0 || Width(grid) == 0 then Err(IndexError)
    else
      var color := grid[0][0];
      UniformIsFull(grid, color);
      if grid != Full(|grid|, Width(grid), color) then Err(SynthError)
      else Ok(BlockParams(|grid|, Width(grid), color))
  }

  lemma UniformIsFull(g: Grid, v: int)
    ensures Uniform(g, v) <==> g == Full(|g|, Width(g), v)
  {
    if Uniform(g, v) {
      assert forall i :: 0 <= i < |g| ==> g[i] == Full(|g|, Width(g), v)[i];
    }
  }

  lemma BlockRoundTrip(h: nat, w: nat, c: int)
    requires h > 0 && w > 0
    ensures BlockInv(Full(h, w, c)) == Ok(BlockParams(h, w, c))
  {
  }

  // ---------------------------------------------------------------------------
  // kronecker: the consistency check only

  /** Python's `a // b` (floor division; Dafny's `/` is Euclidean). */
  function FloorDiv(a: int, b: int): int
    requires b != 0
  {
    if b > 0 then a / b else (-a) / (-b)
  }

  /** With a negative template dimension the block count `M // M1` of a grid
      dimension is never positive, so `range(M2)` is empty. */
  lemma NegativeTemplateNoBlocks(m: nat, m1: int)
    requires m1 < 0
    ensures FloorDiv(m, m1) <= 0
    ensures m > 0 ==> FloorDiv(m, m1) < 0
  {
  }

  /** The block positions `(i, j)` with `i < m2`, `j < n2`, in the row-major
      order of the source's double loop. */
  function Positions(m2: nat, n2: nat): (ps: seq<(nat, nat)>)
    ensures forall p :: p in ps <==> p.0 < m2 && p.1 < n2
  {
    if m2 == 0 then []
    else
      var row: seq<(nat, nat)> := seq(n2, j requires 0 <= j < n2 => (m2 - 1, j));
      assert forall p: (nat, nat) :: p.0 == m2 - 1 && p.1 < n2 ==> row[p.1] == p;
      Positions(m2 - 1, n2) + row
  }

  lemma BlockFits(i: nat, m: nat, total: nat)
    requires m > 0 && i < total / m
    ensures i * m + m <= total
  {
    assert (i + 1) * m <= (total / m) * m;
  }

  /** `p` is the position of a whole `m1` by `n1` block of `out`. */
  predicate ValidPos(out: Grid, m1: nat, n1: nat, p: (nat, nat)) {
    m1 > 0 && n1 > 0 && p.0 < |out| / m1 && p.1 < Width(out) / n1
  }

  /** The `m1` by `n1` block at block position `p` of `out`. */
  function KronBlock(out: Grid, m1: nat, n1: nat, p: (nat, nat)): Grid
    requires ValidPos(out, m1, n1, p)
  {
    BlockFits(p.0, m1, |out|);
    BlockFits(p.1, n1, Width(out));
    SubGrid(out, p.0 * m1, p.1 * n1, m1, n1)
  }

  predicate Nonzero(g: Grid) {
    exists i, j :: 0 <= i < |g| && 0 <= j < Width(g) && g[i][j] != 0
  }

  /** The positions of `ps` whose block holds a nonzero cell, in order. */
  function NonzeroPositions(out: Grid, m1: nat, n1: nat, ps: seq<(nat, nat)>): (nz: seq<(nat, nat)>)
    requires forall p :: p in ps ==> ValidPos(out, m1, n1, p)
    ensures forall p :: p in nz <==> p in ps && Nonzero(KronBlock(out, m1, n1, p))
  {
    if |ps| == 0 then []
    else
      var rest := NonzeroPositions(out, m1, n1, ps[1..]);
      assert forall p :: p in ps <==> p == ps[0] || p in ps[1..];
      if Nonzero(KronBlock(out, m1, n1, ps[0])) then [ps[0]] + rest else rest
  }

  /** What a successful check establishes: all blocks of `out` that hold a
      nonzero cell are equal. */
  ghost predicate NonzeroBlocksAgree(out: Grid, m1: nat, n1: nat) {
    forall p: (nat, nat), q: (nat, nat) ::
      ValidPos(out, m1, n1, p) && ValidPos(out, m1, n1, q)
      && Nonzero(KronBlock(out, m1, n1, p)) && Nonzero(KronBlock(out, m1, n1, q))
      ==> KronBlock(out, m1, n1, p) == KronBlock(out, m1, n1, q)
  }

  /** Comparing every nonzero block with the first one decides `NonzeroBlocksAgree`. */
  lemma ScanDecidesAgreement(out: Grid, m1: nat, n1: nat, nz: seq<(nat, nat)>)
    requires forall p :: p in nz <==> ValidPos(out, m1, n1, p) && Nonzero(KronBlock(out, m1, n1, p))
    ensures (forall k :: 0 <= k < |nz| ==> KronBlock(out, m1, n1, nz[k]) == KronBlock(out, m1, n1, nz[0]))
      <==> NonzeroBlocksAgree(out, m1, n1)
  {
    if forall k :: 0 <= k < |nz| ==> KronBlock(out, m1, n1, nz[k]) == KronBlock(out, m1, n1, nz[0]) {
      forall p: (nat, nat), q: (nat, nat) |
        ValidPos(out, m1, n1, p) && ValidPos(out, m1, n1, q)
        && Nonzero(KronBlock(out, m1, n1, p)) && Nonzero(KronBlock(out, m1, n1, q))
        ensures KronBlock(out, m1, n1, p) == KronBlock(out, m1, n1, q)
      {
        assert p in nz && q in nz;
        var a :| 0 <= a < |nz| && nz[a] == p;
        var b :| 0 <= b < |nz| && nz[b] == q;
      }
    } else {
      var k :| 0 <= k < |nz| && KronBlock(out, m1, n1, nz[k]) != KronBlock(out, m1, n1, nz[0]);
      assert nz[k] in nz && nz[0] in nz;
    }
  }

  /** The consistency check at the start of `kronecker_cond_inv`: `out` is cut
      into `M1` by `N1` blocks, and every block holding a nonzero cell must equal
      the first such block. A zero template dimension is a `ZeroDivisionError`;
      template dimensions of opposite signs make the scratch array
      `np.zeros((M1 * N1, M2 * N2))` have a negative dimension (`ValueError`);
      two negative ones make `M2 = M // M1` and `N2 = N // N1` at most zero, so
      the loops visit no block and nothing is raised. */
  function KroneckerConsistency(out: Grid, m1: int, n1: int): (r: Outcome)
    ensures m1 == 0 || n1 == 0 <==> r == Fail(ZeroDivisionError)
    ensures m1 > 0 && n1 > 0 ==> (r.Pass? <==> NonzeroBlocksAgree(out, m1, n1))
    ensures m1 > 0 && n1 > 0 && r.Fail? ==> r.error == SynthError
    ensures m1 != 0 && n1 != 0 && (m1 < 0) != (n1 < 0) ==> r == Fail(ValueError)
    ensures m1 < 0 && n1 < 0 ==> r == Pass
  {
    if m1 == 0 || n1 == 0 then Fail(ZeroDivisionError)
    else
      if (m1 < 0) != (n1 < 0) then Fail(ValueError)
      else if m1 < 0 then Pass
      else
        if KronScan(out, m1, n1) then Pass else Fail(SynthError)
  }

  /** The source's scan for positive template dimensions: collect the nonzero
      blocks in row-major order and compare each with the first. */
  function KronScan(out: Grid, m1: nat, n1: nat): (agree: bool)
    requires m1 > 0 && n1 > 0
    ensures agree <==> NonzeroBlocksAgree(out, m1, n1)
  {
    var nz := NonzeroPositions(out, m1, n1, Positions(|out| / m1, Width(out) / n1));
    ScanDecidesAgreement(out, m1, n1, nz);
    forall k :: 0 <= k < |nz| ==> KronBlock(out, m1, n1, nz[k]) == KronBlock(out, m1, n1, nz[0])
  }

  // ---------------------------------------------------------------------------
  // sort_by_key

  /** `i` is the last position of `x` in `xs`. */
  predicate IsLastIndex<T(==)>(xs: seq<T>, x: T, i: nat) {
    i < |xs| && xs[i] == x && forall j :: i < j < |xs| ==> xs[j] != x
  }

  /** `sort_by_key_cond_inv`: for each `y` of `ys`, the position of `y` in `xs`.
      The dictionary built from `xs` keeps the last position of a repeated
      value; a `y` missing from `xs` raises a plain `Exception` (not a
      `SynthError`). */
  method SortByKeyCondInv<T(==)>(ys: seq<T>, xs: seq<T>) returns (r: Result<seq<nat>>)
    ensures r.Ok? <==> forall i :: 0 <= i < |ys| ==> ys[i] in xs
    ensures r.Err? ==> r.error == Exception
    ensures r.Ok? ==> |r.value| == |ys|
    ensures r.Ok? ==> forall i :: 0 <= i < |ys| ==> IsLastIndex(xs, ys[i], r.value[i])
  {
    var positions: map<T, nat> := map[];
    var i := 0;
    while i < |xs|
      invariant 0 <= i <= |xs|
      invariant forall x :: x in positions <==> x in xs[..i]
      invariant forall x :: x in positions ==> IsLastIndex(xs[..i], x, positions[x])
    {
      assert xs[..i + 1] == xs[..i] + [xs[i]];
      positions := positions[xs[i] := i];
      i := i + 1;
    }
    assert xs[..i] == xs;
    var keys: seq<nat> := [];
    var k := 0;
    while k < |ys|
      invariant 0 <= k <= |ys|
      invariant |keys| == k
      invariant forall m :: 0 <= m < k ==> ys[m] in xs && IsLastIndex(xs, ys[m], keys[m])
    {
      if ys[k] !in positions {
        return Err(Exception);
      }
      keys := keys + [positions[ys[k]]];
      k := k + 1;
    }
    return Ok(keys);
  }

  // ---------------------------------------------------------------------------
  // overlay_pair conditional inverses

  /** `np.pad` with the background colour on the bottom and right, up to `h` by `w`. */
  function Pad(g: Grid, h: nat, w: nat, bg: int): (p: Grid)
    requires |g| <= h && Width(g) <= w
    ensures |p| == h && (h > 0 ==> Width(p) == w)
    ensures forall i, j :: 0 <= i < h && 0 <= j < w ==>
      p[i][j] == (if i < |g| && j < Width(g) then g[i][j] else bg)
  {
    seq(h, i requires 0 <= i < h =>
      seq(w, j requires 0 <= j < w => if i < |g| && j < Width(g) then g[i][j] else bg))
  }

  /** The body shared by the two overlay conditional inverses: pad the given
      part to the output's shape, require at least one cell where it agrees with
      the output, and return the output with those agreeing cells cleared to
      the background. */
  function OverlayCondInv(out: Grid, given: Grid, bg: int): (r: Result<Grid>)
    ensures r == Err(ValueError) <==> |given| > |out| || Width(given) > Width(out)
    ensures r == Err(SynthError) <==>
      |given| <= |out| && Width(given) <= Width(out)
      && forall i, j :: InBounds(out, i, j) ==> Pad(given, |out|, Width(out), bg)[i][j] != out[i][j]
    ensures r.Ok? <==>
      |given| <= |out| && Width(given) <= Width(out)
      && exists i, j :: InBounds(out, i, j) && Pad(given, |out|, Width(out), bg)[i][j] == out[i][j]
    ensures r.Ok? ==>
      var p := Pad(given, |out|, Width(out), bg);
      && SameShape(r.value, out)
      && (exists i, j :: InBounds(out, i, j) && p[i][j] == out[i][j])
      && forall i, j :: InBounds(out, i, j) ==>
           r.value[i][j] == (if p[i][j] == out[i][j] then bg else out[i][j])
  {
    if |given| > |out| || Width(given) > Width(out) then Err(ValueError)
    else
      var p := Pad(given, |out|, Width(out), bg);
      if CondAssert(exists i, j :: 0 <= i < |out| && 0 <= j < Width(out) && p[i][j] == out[i][j]).Fail? then Err(SynthError)
      else
        Ok(seq(|out|, i requires 0 <= i < |out| =>
          seq(Width(out), j requires 0 <= j < Width(out) =>
            if p[i][j] == out[i][j] then bg else out[i][j])))
  }

  /** `overlay_pair_cond_inv_top`: given the output and the top grid, the bottom grid. */
  function OverlayCondInvTop(out: Grid, top: Grid, bg: int): Result<Grid>
  {
    OverlayCondInv(out, top, bg)
  }

  /** `overlay_pair_cond_inv_bottom`: given the output and the bottom grid, the top grid. */
  function OverlayCondInvBottom(out: Grid, bottom: Grid, bg: int): Result<Grid>
  {
    OverlayCondInv(out, bottom, bg)
  }

  /** When the inverse given the top grid succeeds, overlaying the (padded) top
      on the recovered bottom gives the output back exactly when every cell
      where the top disagrees with the output is background in the top. The
      source does not check that condition (see `OverlayTopUnchecked`). */
  lemma OverlayTopExact(out: Grid, top: Grid, bg: int)
    requires OverlayCondInvTop(out, top, bg).Ok?
    ensures var p := Pad(top, |out|, Width(out), bg);
      var bottom := OverlayCondInvTop(out, top, bg).value;
      Overlay(p, bottom, bg) == out <==>
        forall i, j :: InBounds(out, i, j) && p[i][j] != out[i][j] ==> p[i][j] == bg
  {
    var p := Pad(top, |out|, Width(out), bg);
    var bottom := OverlayCondInvTop(out, top, bg).value;
    var o := Overlay(p, bottom, bg);
    if forall i, j :: InBounds(out, i, j) && p[i][j] != out[i][j] ==> p[i][j] == bg {
      assert forall i :: 0 <= i < |out| ==> o[i] == out[i] by {
        forall i | 0 <= i < |out| ensures o[i] == out[i] {
          assert forall j :: 0 <= j < Width(out) ==> o[i][j] == out[i][j];
        }
      }
    } else {
      var i, j :| InBounds(out, i, j) && p[i][j] != out[i][j] && p[i][j] != bg;
      assert o[i][j] != out[i][j];
    }
  }

  /** When the inverse given the bottom grid succeeds, overlaying the recovered
      top on the (padded) bottom gives the output back exactly when no cell
      where the bottom disagrees with the output is background in the output. */
  lemma OverlayBottomExact(out: Grid, bottom: Grid, bg: int)
    requires OverlayCondInvBottom(out, bottom, bg).Ok?
    ensures var p := Pad(bottom, |out|, Width(out), bg);
      var top := OverlayCondInvBottom(out, bottom, bg).value;
      Overlay(top, p, bg) == out <==>
        forall i, j :: InBounds(out, i, j) && p[i][j] != out[i][j] ==> out[i][j] != bg
  {
    var p := Pad(bottom, |out|, Width(out), bg);
    var top := OverlayCondInvBottom(out, bottom, bg).value;
    var o := Overlay(top, p, bg);
    if forall i, j :: InBounds(out, i, j) && p[i][j] != out[i][j] ==> out[i][j] != bg {
      assert forall i :: 0 <= i < |out| ==> o[i] == out[i] by {
        forall i | 0 <= i < |out| ensures o[i] == out[i] {
          assert forall j :: 0 <= j < Width(out) ==> o[i][j] == out[i][j];
        }
      }
    } else {
      var i, j :| InBounds(out, i, j) && p[i][j] != out[i][j] && out[i][j] == bg;
      assert o[i][j] != out[i][j];
    }
  }

  /** The overlay inverses accept a given grid that contradicts the output: with
      out = [[1, 2]] and top = [[1, 3]] one cell agrees, so the call succeeds
      with bottom = [[0, 2]], yet overlaying the top on it gives [[1, 3]]. */
  lemma OverlayTopUnchecked()
    ensures OverlayCondInvTop([[1, 2]], [[1, 3]], 0) == Ok([[0, 2]])
    ensures Overlay([[1, 3]], [[0, 2]], 0) != [[1, 2]]
  {
    var out: Grid := [[1, 2]];
    var top: Grid := [[1, 3]];
    var p := Pad(top, 1, 2, 0);
    assert p[0][0] == 1 && p[0][1] == 3;
    assert p[0][0] == out[0][0];
    var r := OverlayCondInvTop(out, top, 0);
    assert r.Ok?;
    assert r.value[0][0] == 0 && r.value[0][1] == 2;
    assert r.value[0] == [0, 2];
    assert r.value == [[0, 2]];
    assert Overlay(top, [[0, 2]], 0)[0][1] == 3;
  }
}

=== FILE: maximum_unop.dfy ===
/** `MaximumUnop` of the DeepCoder interpreter (org.genesys.interpreter.deepcode):
    the maximum of a list of integers, with 256 standing for the maximum of the
    empty list and the empty list for the argument whose maximum is 256. */
module MaximumUnop {
  import opened Wrappers

  /** The run-time shapes an argument can have: an `Integer`, a `List` of
      non-null `Integer`s, or a value that is neither an `Integer` nor a `List`.
      Lists holding `null` or non-`Integer` elements are not represented. */
  datatype JValue = JInt(n: int) | JList(items: seq<int>) | JOther

  /** The value standing for the maximum of the empty list. */
  const Sentinel: int := 256

  /** `list.stream().reduce(Integer::max).get()` on a non-empty list. */
  function MaxOf(xs: seq<int>): (m: int)
    requires |xs| > 0
    ensures m in xs
    ensures forall k :: 0 <= k < |xs| ==> xs[k] <= m
  {
    if |xs| == 1 then xs[0]
    else
      var rest := MaxOf(xs[1..]);
      assert forall k :: 1 <= k < |xs| ==> xs[k] == xs[1..][k - 1];
      if xs[0] >= rest then xs[0] else rest
  }

  /** A member of the list that is at least every element is the maximum. */
  lemma MaxOfUnique(xs: seq<int>, m: int)
    requires m in xs && forall k :: 0 <= k < |xs| ==> xs[k] <= m
    ensures MaxOf(xs) == m
  {
    var i :| 0 <= i < |xs| && xs[i] == MaxOf(xs);
    var j :| 0 <= j < |xs| && xs[j] == m;
    assert MaxOf(xs) <= m && m <= MaxOf(xs);
  }

  /** `apply(obj)`, with assertions enabled: an `Integer` must be 256 and gives
      the empty list; anything else must be a list, whose maximum it returns,
      256 for the empty list. A failed assertion is an `AssertionError`. */
  function Apply(obj: JValue): (r: Result<JValue>)
    ensures r.Err? <==> obj.JOther? || (obj.JInt? && obj.n != Sentinel)
    ensures r.Err? ==> r.error == AssertionError
    ensures obj == JInt(Sentinel) ==> r == Ok(JList([]))
    ensures obj == JList([]) ==> r == Ok(JInt(Sentinel))
    ensures obj.JList? && |obj.items| > 0 ==>
      r.Ok? && r.value.JInt? && r.value.n in obj.items &&
      forall k :: 0 <= k < |obj.items| ==> obj.items[k] <= r.value.n
  {
    match obj
    case JInt(n) => if n == Sentinel then Ok(JList([])) else Err(AssertionError)
    case JList(items) => if |items| == 0 then Ok(JInt(Sentinel)) else Ok(JInt(MaxOf(items)))
    case JOther => Err(AssertionError)
  }

  /** The sentinel and the empty list are each other's image. */
  lemma SentinelRoundTrip()
    ensures Apply(JList([])) == Ok(JInt(Sentinel))
    ensures Apply(Apply(JList([])).value) == Ok(JList([]))
    ensures Apply(Apply(JInt(Sentinel)).value) == Ok(JInt(Sentinel))
  {
  }

  /** Applying to a one-element list gives its element back. */
  lemma ApplySingleton(x: int)
    ensures Apply(JList([x])) == Ok(JInt(x))
  {
  }
}

=== FILE: policy_gradient.dfy ===
/** The per-episode reward bookkeeping of the policy-gradient training loop
    (experiments/pol_grad_24.py): discounting the step rewards, rewards-to-go,
    and the choice of per-action weights for the loss. The network, sampling
    and the optimiser are not part of this model. */
module PolicyGradient {
  import opened Wrappers

  /** `sum(xs)`. */
  function Sum(xs: seq<real>): real {
    if |xs| == 0 then 0.0 else xs[0] + Sum(xs[1..])
  }

  /** `x * d`, named so that equal arguments give equal products without
      arithmetic reasoning. */
  function Scale(x: real, d: real): real {
    x * d
  }

  function Power(x: real, n: nat): real {
    if n == 0 then 1.0 else x * Power(x, n - 1)
  }

  /** The first `n` step rewards, the reward of step `k` scaled by `factor^k`. */
  function Discounted(rews: seq<real>, factor: real, n: nat): (r: seq<real>)
    requires n <= |rews|
    ensures |r| == n
    ensures forall k :: 0 <= k < n ==> r[k] == Scale(rews[k], Power(factor, k))
  {
    if n == 0 then []
    else
      var prev := Discounted(rews, factor, n - 1);
      var r := prev + [Scale(rews[n - 1], Power(factor, n - 1))];
      assert forall k :: 0 <= k < n - 1 ==> r[k] == prev[k];
      r
  }

  /** The rewards `ep_rews` collects from the step rewards `rews`: the reward of
      each step scaled by `discount`, which starts at 1.0 and is multiplied by
      `factor` after every step. With a factor of 1 they are the step rewards. */
  method CollectRewards(rews: seq<real>, factor: real) returns (epRews: seq<real>)
    ensures |epRews| == |rews|
    ensures forall i :: 0 <= i < |rews| ==> epRews[i] == rews[i] * Power(factor, i)
    ensures factor == 1.0 ==> epRews == rews
  {
    epRews := [];
    var discount := 1.0;
    var i := 0;
    while i < |rews|
      invariant 0 <= i <= |rews|
      invariant discount == Power(factor, i)
      invariant epRews == Discounted(rews, factor, i)
    {
      epRews := epRews + [Scale(rews[i], discount)];
      discount := factor * discount;
      i := i + 1;
    }
    if factor == 1.0 {
      forall k | 0 <= k < |rews| ensures epRews[k] == rews[k] {
        PowerOfOne(k);
      }
    }
  }

  lemma {:induction false} PowerOfOne(n: nat)
    ensures Power(1.0, n) == 1.0
  {
    if n > 0 {
      PowerOfOne(n - 1);
    }
  }

  /** The reward-to-go of every step: the sum of its reward and all later ones. */
  function ToGo(rews: seq<real>): (r: seq<real>)
    ensures |r| == |rews|
  {
    seq(|rews|, i requires 0 <= i < |rews| => Sum(rews[i..]))
  }

  /** `reward_to_go(rews)`: filled from the last step backwards, each entry
      adding its own reward to the entry after it. */
  method RewardToGo(rews: seq<real>) returns (rtgs: seq<real>)
    ensures rtgs == ToGo(rews)
  {
    var n := |rews|;
    rtgs := seq(n, _ => 0.0);
    var i := n;
    while i > 0
      invariant 0 <= i <= n && |rtgs| == n
      invariant forall k :: i <= k < n ==> rtgs[k] == Sum(rews[k..])
    {
      i := i - 1;
      assert rews[i..][1..] == rews[i + 1..];
      rtgs := rtgs[i := rews[i] + (if i + 1 < n then rtgs[i + 1] else 0.0)];
    }
  }

  /** Each reward-to-go is its step's reward plus the next reward-to-go, the
      last one is the last reward, and the first one is the episode return. */
  lemma ToGoRecurrence(rews: seq<real>)
    ensures forall i :: 0 <= i < |rews| - 1 ==> ToGo(rews)[i] == rews[i] + ToGo(rews)[i + 1]
    ensures |rews| > 0 ==> ToGo(rews)[|rews| - 1] == rews[|rews| - 1]
    ensures |rews| > 0 ==> ToGo(rews)[0] == Sum(rews)
  {
    forall i | 0 <= i < |rews| ensures ToGo(rews)[i] == rews[i] + Sum(rews[i + 1..]) {
      assert rews[i..][1..] == rews[i + 1..];
    }
    if |rews| > 0 {
      assert rews[|rews|..] == [];
      assert rews[0..] == rews;
    }
  }

  datatype RewardType = Shaped | RewardToGoWeights | EpisodeReturn

  /** The record of one finished episode: its per-action weights, its length and its return. */
  datatype EpisodeRecord = EpisodeRecord(weights: seq<real>, length: nat, ret: real)

  /** The end-of-episode branch of `train_one_epoch`. `collected` holds the
      collected (discounted) step rewards; `shaped` is `env.episode_rewards()`,
      which replaces them for the shaped reward type (`len(None)` is a
      `TypeError`). The weights are the shaped rewards, the rewards-to-go, or
      the episode return repeated once per action; `assert len(weights) == ep_len`
      then holds on every branch. */
  method EndEpisode(rewardType: RewardType, collected: seq<real>, shaped: Option<seq<real>>)
    returns (r: Result<EpisodeRecord>)
    ensures r.Err? <==> rewardType == Shaped && shaped.None?
    ensures r.Err? ==> r.error == TypeError
    ensures r.Ok? ==> |r.value.weights| == r.value.length
    ensures r.Ok? ==> var rews := if rewardType == Shaped then shaped.value else collected;
      && r.value.length == |rews|
      && r.value.ret == Sum(rews)
      && r.value.weights == match rewardType
         case Shaped => rews
         case RewardToGoWeights => ToGo(rews)
         case EpisodeReturn => seq(|rews|, _ => Sum(rews))
  {
    var rews := collected;
    if rewardType == Shaped {
      if shaped.None? {
        return Err(TypeError);
      }
      rews := shaped.value;
    }
    var len, ret := |rews|, Sum(rews);
    var weights;
    match rewardType {
      case Shaped => weights := rews;
      case RewardToGoWeights => weights := RewardToGo(rews);
      case EpisodeReturn => weights := seq(len, _ => ret);
    }
    if |weights| != len {
      return Err(AssertionError);
    }
    r := Ok(EpisodeRecord(weights, len, ret));
  }
}

=== FILE: pybuiltins.dfy ===
/** The slice of Python's built-in semantics the modelled code relies on:
    slice bounds (negative ones count from the end), `str.rstrip`, `str.split`
    with an explicit separator, `int(...)` on a string and `str(n)` on a
    natural number. Only ASCII whitespace and ASCII digits are modelled. */
module PyBuiltins {
  import opened Wrappers

  /** The position a Python slice bound `k` denotes in a sequence of length `n`
      (as in `s[:k]` and `s[k:]`): negative bounds count from the end, and
      out-of-range bounds are clamped. */
  function SliceBound(n: nat, k: int): (b: nat)
    ensures b <= n
    ensures 0 <= k <= n ==> b == k
  {
    if k < 0 then (if n + k < 0 then 0 else n + k)
    else if k > n then n
    else k
  }

  /** The position `xs[k]` reads in a list of length `n`: a negative index
      counts from the end, and an index outside -n..n-1 is an `IndexError`. */
  function PyIndex(n: nat, k: int): (r: Result<nat>)
    ensures r.Ok? <==> -(n as int) <= k < n
    ensures r.Err? ==> r.error == IndexError
    ensures r.Ok? ==> r.value < n && r.value as int == (if k < 0 then n + k else k)
  {
    if 0 <= k < n then Ok(k)
    else if -(n as int) <= k < 0 then Ok((n + k) as nat)
    else Err(IndexError)
  }

  /** The characters `str.isspace()` accepts among ASCII. */
  const Whitespace: set<char> :=
    {' ', '\t', '\n', '\r', '\U{000B}', '\U{000C}', '\U{001C}', '\U{001D}', '\U{001E}', '\U{001F}'}

  /** `s.rstrip(chars)`: drops the longest suffix made only of characters of `chars`.
      Note that this is a character-set strip, not the removal of a suffix string. */
  function RStrip(s: string, chars: set<char>): (r: string)
    ensures r <= s
    ensures forall k :: |r| <= k < |s| ==> s[k] in chars
    ensures |r| == 0 || r[|r| - 1] !in chars
  {
    if |s| > 0 && s[|s| - 1] in chars then RStrip(s[..|s| - 1], chars) else s
  }

  /** `s.lstrip(chars)`: drops the longest prefix made only of characters of `chars`. */
  function LStrip(s: string, chars: set<char>): (r: string)
    ensures |r| <= |s| && r == s[|s| - |r|..]
    ensures forall k :: 0 <= k < |s| - |r| ==> s[k] in chars
    ensures |r| == 0 || r[0] !in chars
  {
    if |s| > 0 && s[0] in chars then LStrip(s[1..], chars) else s
  }

  /** Exactly one prefix of `s` has the two properties `RStrip` promises:
      `RStrip` removes the longest all-`chars` suffix and nothing else. */
  lemma RStripUnique(s: string, chars: set<char>, p: string)
    requires p <= s
    requires forall k :: |p| <= k < |s| ==> s[k] in chars
    requires |p| == 0 || p[|p| - 1] !in chars
    ensures p == RStrip(s, chars)
  {
  }

  // ---------------------------------------------------------------------------
  // str.split(sep) with an explicit one-character separator

  /** The position of the first occurrence of `c` in `s`. */
  function IndexOf(s: string, c: char): (i: nat)
    requires c in s
    ensures i < |s| && s[i] == c && c !in s[..i]
  {
    if s[0] == c then 0
    else
      var i := 1 + IndexOf(s[1..], c);
      assert s[..i] == [s[0]] + s[1..][..i - 1];
      i
  }

  /** `s.split(c)`: the maximal separator-free pieces; adjacent separators give
      empty pieces and the result is never empty (`"".split(c) == [""]`). */
  function Split(s: string, c: char): (parts: seq<string>)
    ensures |parts| >= 1
    ensures forall k :: 0 <= k < |parts| ==> c !in parts[k]
    decreases |s|
  {
    if c !in s then [s]
    else
      var i := IndexOf(s, c);
      [s[..i]] + Split(s[i + 1..], c)
  }

  /** `c.join(parts)`, the inverse of `Split`. */
  function Join(parts: seq<string>, c: char): string
    requires |parts| >= 1
  {
    if |parts| == 1 then parts[0] else parts[0] + [c] + Join(parts[1..], c)
  }

  lemma {:induction false} JoinSplit(s: string, c: char)
    ensures Join(Split(s, c), c) == s
    decreases |s|
  {
    if c in s {
      var i := IndexOf(s, c);
      JoinSplit(s[i + 1..], c);
      assert Split(s, c)[1..] == Split(s[i + 1..], c);
      assert s == s[..i] + [c] + s[i + 1..];
    }
  }

  lemma {:induction false} SplitJoin(parts: seq<string>, c: char)
    requires |parts| >= 1
    requires forall k :: 0 <= k < |parts| ==> c !in parts[k]
    ensures Split(Join(parts, c), c) == parts
  {
    if |parts| > 1 {
      var tail := parts[1..];
      assert forall k :: 0 <= k < |tail| ==> tail[k] == parts[k + 1];
      SplitJoin(tail, c);
      SplitAt(parts[0], c, Join(tail, c));
      assert parts == [parts[0]] + tail;
    }
  }

  /** Splitting at the first separator. */
  lemma SplitAt(a: string, c: char, b: string)
    requires c !in a
    ensures Split(a + [c] + b, c) == [a] + Split(b, c)
  {
    var s := a + [c] + b;
    IndexOfAfter(a, c, b);
    assert s[..|a|] == a;
    assert s[|a| + 1..] == b;
  }

  /** The first `c` of `a + [c] + b` is the one after `a` when `a` has none. */
  lemma IndexOfAfter(a: string, c: char, b: string)
    requires c !in a
    ensures c in a + [c] + b && IndexOf(a + [c] + b, c) == |a|
  {
    var s := a + [c] + b;
    assert s[|a|] == c;
    forall k | 0 <= k < |a| ensures s[k] != c {
      assert s[k] == a[k];
    }
    forall j | |a| < j <= |s| ensures c in s[..j] {
      assert s[..j][|a|] == c;
    }
  }

  /** `s.rindex(c)`: the position of the last occurrence of `c`; a `ValueError`
      when there is none. */
  function RIndex(s: string, c: char): (r: Result<nat>)
    ensures r.Ok? <==> c in s
    ensures r.Err? ==> r.error == ValueError
    ensures r.Ok? ==> r.value < |s| && s[r.value] == c && c !in s[r.value + 1..]
  {
    if |s| == 0 then Err(ValueError)
    else if s[|s| - 1] == c then Ok(|s| - 1)
    else
      var r := RIndex(s[..|s| - 1], c);
      assert c in s ==> c in s[..|s| - 1] by {
        if c in s {
          var k :| 0 <= k < |s| && s[k] == c;
          assert s[..|s| - 1][k] == c;
        }
      }
      if r.Ok? then
        assert s[r.value + 1..] == s[..|s| - 1][r.value + 1..] + [s[|s| - 1]];
        r
      else r
  }

  // ---------------------------------------------------------------------------
  // Decimal numerals: str(n) and int(s)

  predicate IsDigit(ch: char) {
    '0' <= ch <= '9'
  }

  predicate IsDigits(s: string) {
    |s| > 0 && forall k :: 0 <= k < |s| ==> IsDigit(s[k])
  }

  function DigitChar(d: nat): (ch: char)
    requires d < 10
    ensures IsDigit(ch)
  {
    ('0' as int + d) as char
  }

  /** The value of a string of decimal digits. */
  function DigitsValue(s: string): nat
    requires IsDigits(s)
  {
    var last := (s[|s| - 1] as int - '0' as int) as nat;
    if |s| == 1 then last else DigitsValue(s[..|s| - 1]) * 10 + last
  }

  /** `str(n)` for a natural number: its decimal numeral without leading zeros. */
  function NatToString(n: nat): (s: string)
    ensures IsDigits(s)
  {
    if n < 10 then [DigitChar(n)] else NatToString(n / 10) + [DigitChar(n % 10)]
  }

  /** `str(n)` for any integer. */
  function IntToString(n: int): string {
    if n < 0 then "-" + NatToString(-n) else NatToString(n)
  }

  /** `int(s)`: surrounding whitespace, an optional sign, then at least one digit;
      anything else is a `ValueError`. */
  function ParseInt(s: string): (r: Result<int>)
    ensures r.Err? ==> r.error == ValueError
  {
    ParseNumeral(LStrip(RStrip(s, Whitespace), Whitespace))
  }

  /** The numeral left once the whitespace is stripped. */
  function ParseNumeral(t: string): (r: Result<int>)
    ensures r.Err? ==> r.error == ValueError
  {
    if |t| > 0 && (t[0] == '-' || t[0] == '+') then
      if IsDigits(t[1..]) then
        var v: int := DigitsValue(t[1..]);
        Ok(if t[0] == '-' then -v else v)
      else Err(ValueError)
    else if IsDigits(t) then Ok(DigitsValue(t))
    else Err(ValueError)
  }

  lemma {:induction false} NatToStringRoundTrip(n: nat)
    ensures DigitsValue(NatToString(n)) == n
  {
    if n >= 10 {
      var s := NatToString(n);
      NatToStringRoundTrip(n / 10);
      assert s[..|s| - 1] == NatToString(n / 10);
    }
  }

  /** `str` on naturals is injective: distinct numbers have distinct numerals. */
  lemma NatToStringInjective(a: nat, b: nat)
    ensures NatToString(a) == NatToString(b) ==> a == b
  {
    NatToStringRoundTrip(a);
    NatToStringRoundTrip(b);
  }

  /** `int(str(n)) == n` for every integer. */
  lemma ParseIntRoundTrip(n: int)
    ensures ParseInt(IntToString(n)) == Ok(n)
  {
    var m: nat := if n < 0 then -n else n;
    NatToStringRoundTrip(m);
    if n < 0 {
      ParseNegativeDigits(NatToString(m));
    } else {
      ParseDigits(NatToString(m));
    }
  }

  lemma ParseDigits(digits: string)
    requires IsDigits(digits)
    ensures ParseInt(digits) == Ok(DigitsValue(digits))
  {
    NotWhitespace(digits[0]);
    NotWhitespace(digits[|digits| - 1]);
    StripNothing(digits, Whitespace);
    assert ParseInt(digits) == ParseNumeral(digits);
    PositiveNumeral(digits);
  }

  lemma PositiveNumeral(digits: string)
    requires IsDigits(digits)
    ensures ParseNumeral(digits) == Ok(DigitsValue(digits))
  {
    assert IsDigit(digits[0]);
  }

  lemma ParseNegativeDigits(digits: string)
    requires IsDigits(digits)
    ensures ParseInt("-" + digits) == Ok(-(DigitsValue(digits) as int))
  {
    var s := "-" + digits;
    assert s[|s| - 1] == digits[|digits| - 1];
    NotWhitespace(s[0]);
    NotWhitespace(s[|s| - 1]);
    StripNothing(s, Whitespace);
    assert ParseInt(s) == ParseNumeral(s);
    NegativeNumeral(digits);
  }

  lemma NegativeNumeral(digits: string)
    requires IsDigits(digits)
    ensures ParseNumeral("-" + digits) == Ok(-(DigitsValue(digits) as int))
  {
    assert ("-" + digits)[1..] == digits;
  }

  lemma NotWhitespace(ch: char)
    requires IsDigit(ch) || ch == '-'
    ensures ch !in Whitespace
  {
  }

  /** A string that starts and ends outside `chars` is left alone by both strips. */
  lemma StripNothing(s: string, chars: set<char>)
    requires |s| > 0 && s[0] !in chars && s[|s| - 1] !in chars
    ensures LStrip(RStrip(s, chars), chars) == s
  {
  }
}

=== FILE: symmetry_tasks.dfy ===
/** The deterministic grid transforms of the synthetic symmetry-task generator
    (ec/data/ARC/data/training/synthetic_symmetry_tasks/task_creation_repeatableunit.py):
    grid construction, colour filling, numpy rotations and flips, the
    "mirror" overlays, the four-way symmetry check and tiling. Random choices
    the generator makes (`random.choice`) are parameters. */
module SymmetryTasks {
  import opened Wrappers
  import opened Grids
  import opened PyBuiltins
  import InverseFunctions

  /** Number of ARC colours (`len(COLORS)`). */
  const NumColors: nat := 10

  predicate NonEmpty(g: Grid) {
    |g| > 0 && Width(g) > 0
  }

  // ---------------------------------------------------------------------------
  // make_grid, least_common_color, make_same_grid

  /** `make_grid(row, col, background_color)`. */
  function MakeGrid(rows: nat, cols: nat, background: int): (g: Grid)
    ensures |g| == rows && (rows > 0 ==> Width(g) == cols)
    ensures forall i, j :: 0 <= i < rows && 0 <= j < cols ==> g[i][j] == background
  {
    Full(rows, cols, background)
  }

  /** `make_grid` and the block inverse `block_inv` undo each other: a
      non-empty grid built by `make_grid` is recognised as that block, and
      every grid `block_inv` accepts is the `make_grid` of its parameters. */
  lemma MakeGridIsBlock(rows: nat, cols: nat, background: int, g: Grid)
    ensures rows > 0 && cols > 0 ==>
      InverseFunctions.BlockInv(MakeGrid(rows, cols, background)) == Ok(InverseFunctions.BlockParams(rows, cols, background))
    ensures InverseFunctions.BlockInv(g).Ok? ==>
      var p := InverseFunctions.BlockInv(g).value;
      g == MakeGrid(p.height, p.width, p.color)
  {
    if rows > 0 && cols > 0 {
      InverseFunctions.BlockRoundTrip(rows, cols, background);
    }
  }

  /** The slot `occurences[int(pixel)]` names: Python list indexing, so a pixel
      in -10..-1 counts towards colour `10 + pixel`; anything else has no slot. */
  function ColorSlot(pixel: int): Option<nat> {
    match PyIndex(NumColors, pixel)
    case Ok(c) => Some(c)
    case Err(_) => None
  }

  /** All cells of `g` row by row. */
  function Cells(g: Grid): seq<int> {
    if |g| == 0 then [] else Cells(g[..|g| - 1]) + g[|g| - 1]
  }

  function CountSlot(cells: seq<int>, c: nat): nat {
    if |cells| == 0 then 0
    else CountSlot(cells[..|cells| - 1], c) + (if ColorSlot(cells[|cells| - 1]) == Some(c) then 1 else 0)
  }

  /** Every pixel of `g` has a slot in the occurrence table. */
  predicate AllSlotted(g: Grid) {
    forall k :: 0 <= k < |Cells(g)| ==> ColorSlot(Cells(g)[k]).Some?
  }

  /** The occurrence table of `least_common_color`; a pixel without a slot is an `IndexError`. */
  function Occurrences(g: Grid): (r: Result<seq<nat>>)
    ensures r.Ok? <==> AllSlotted(g)
    ensures r.Err? ==> r.error == IndexError
    ensures r.Ok? ==> |r.value| == NumColors
    ensures r.Ok? ==> forall c :: 0 <= c < NumColors ==> r.value[c] == CountSlot(Cells(g), c)
  {
    if AllSlotted(g) then
      Ok(seq(NumColors, c requires 0 <= c < NumColors => CountSlot(Cells(g), c)))
    else Err(IndexError)
  }

  /** `c` has the least count among colours 1..9 (colour 0, black, is skipped). */
  predicate IsLeastCommon(occ: seq<nat>, c: nat)
    requires |occ| == NumColors
  {
    1 <= c < NumColors && forall d :: 1 <= d < NumColors ==> occ[c] <= occ[d]
  }

  /** The scan state after colours 1..index-1: `minimum` is their least count
      (`None` stands for the initial `float('inf')`) and `mins` lists, in
      increasing order and once each, the colours that reach it. */
  predicate ScanInvariant(occ: seq<nat>, index: nat, minimum: Option<nat>, mins: seq<nat>)
    requires |occ| == NumColors
  {
    && 1 <= index <= NumColors
    && (minimum.None? <==> index == 1)
    && (minimum.None? ==> mins == [])
    && (minimum.Some? ==>
         && (forall c :: 1 <= c < index ==> minimum.value <= occ[c])
         && (forall k :: 0 <= k < |mins| ==> 1 <= mins[k] < index && occ[mins[k]] == minimum.value)
         && (forall c :: 1 <= c < index && occ[c] == minimum.value ==> c in mins)
         && (forall k, l :: 0 <= k < l < |mins| ==> mins[k] < mins[l])
         && |mins| > 0)
  }

  /** The minimum scan of `least_common_color` with the evidently intended
      `elif`: a new minimum restarts the list, a tie extends it. */
  function MinScan(occ: seq<nat>, index: nat, minimum: Option<nat>, mins: seq<nat>): (r: seq<nat>)
    requires |occ| == NumColors
    requires ScanInvariant(occ, index, minimum, mins)
    ensures |r| > 0
    ensures forall k :: 0 <= k < |r| ==> IsLeastCommon(occ, r[k])
    ensures forall c :: 0 <= c < NumColors && IsLeastCommon(occ, c) ==> c in r
    ensures forall k, l :: 0 <= k < l < |r| ==> r[k] < r[l]
    decreases NumColors - index
  {
    if index == NumColors then
      assert forall c :: 0 <= c < NumColors && IsLeastCommon(occ, c) ==> occ[c] == occ[mins[0]];
      mins
    else if minimum.None? || occ[index] < minimum.value then
      MinScan(occ, index + 1, Some(occ[index]), [index])
    else if occ[index] == minimum.value then
      MinScan(occ, index + 1, minimum, mins + [index])
    else
      MinScan(occ, index + 1, minimum, mins)
  }

  /** The colours 1..9 of least count, each once, in increasing order. */
  function MinIndices(occ: seq<nat>): (r: seq<nat>)
    requires |occ| == NumColors
    ensures |r| > 0
    ensures forall c :: 0 <= c < NumColors ==> (c in r <==> IsLeastCommon(occ, c))
    ensures forall k, l :: 0 <= k < l < |r| ==> r[k] < r[l]
  {
    MinScan(occ, 1, None, [])
  }

  /** The minimum scan exactly as written: after `min_ind = [index]` the
      following `if occurences[index] == minimum` also holds, so the colour that
      sets a new minimum is appended a second time. */
  function MinScanAsWritten(occ: seq<nat>, index: nat, minimum: Option<nat>, mins: seq<nat>): seq<nat>
    requires |occ| == NumColors && 1 <= index <= NumColors
    decreases NumColors - index
  {
    if index == NumColors then mins
    else
      var (minimum', mins') :=
        if minimum.None? || occ[index] < minimum.value then (Some(occ[index]), [index]) else (minimum, mins);
      var mins'' := if minimum' == Some(occ[index]) then mins' + [index] else mins';
      MinScanAsWritten(occ, index + 1, minimum', mins'')
  }

  function MinIndicesAsWritten(occ: seq<nat>): seq<nat>
    requires |occ| == NumColors
  {
    MinScanAsWritten(occ, 1, None, [])
  }

  lemma {:induction false} MinScanAsWrittenDuplicatesFirst(
    occ: seq<nat>, index: nat, minimum: Option<nat>, mins: seq<nat>, written: seq<nat>)
    requires |occ| == NumColors
    requires ScanInvariant(occ, index, minimum, mins)
    requires minimum.None? ==> written == []
    requires minimum.Some? ==> written == [mins[0]] + mins
    ensures MinScanAsWritten(occ, index, minimum, written) == [MinScan(occ, index, minimum, mins)[0]] + MinScan(occ, index, minimum, mins)
    decreases NumColors - index
  {
    if index < NumColors {
      if minimum.None? || occ[index] < minimum.value {
        MinScanAsWrittenDuplicatesFirst(occ, index + 1, Some(occ[index]), [index], [index, index]);
      } else if occ[index] == minimum.value {
        assert ([mins[0]] + mins) + [index] == [(mins + [index])[0]] + (mins + [index]);
        MinScanAsWrittenDuplicatesFirst(occ, index + 1, minimum, mins + [index], written + [index]);
      } else {
        MinScanAsWrittenDuplicatesFirst(occ, index + 1, minimum, mins, written);
      }
    }
  }

  /** The list `least_common_color` draws from holds its first colour twice and
      every other least-common colour once, so `random.choice` favours the
      smallest least-common colour. */
  lemma MinIndicesAsWrittenRepeatsFirst(occ: seq<nat>)
    requires |occ| == NumColors
    ensures MinIndicesAsWritten(occ) == [MinIndices(occ)[0]] + MinIndices(occ)
  {
    MinScanAsWrittenDuplicatesFirst(occ, 1, None, [], []);
  }

  /** When colours 1..9 are all equally common (a grid with none of them, for
      one), the draw is among [1, 1, 2, 3, 4, 5, 6, 7, 8, 9]: colour 1 has
      probability 2/10 rather than 1/9. */
  lemma MinIndicesAsWrittenAllTied(occ: seq<nat>)
    requires |occ| == NumColors
    requires forall c :: 1 <= c < NumColors ==> occ[c] == occ[1]
    ensures MinIndicesAsWritten(occ) == [1, 1, 2, 3, 4, 5, 6, 7, 8, 9]
  {
    var r := MinIndices(occ);
    forall c | 1 <= c < NumColors ensures c in r {
      assert IsLeastCommon(occ, c);
    }
    forall k | 0 <= k < |r| ensures 1 <= r[k] < NumColors {
      assert IsLeastCommon(occ, r[k]);
    }
    MinIndicesAreOneToNine(r);
    MinIndicesAsWrittenRepeatsFirst(occ);
    assert [r[0]] + r == [1, 1, 2, 3, 4, 5, 6, 7, 8, 9];
  }

  /** A strictly increasing list of colours 1..9 containing all of them is [1..9]. */
  lemma MinIndicesAreOneToNine(r: seq<nat>)
    requires forall k, l :: 0 <= k < l < |r| ==> r[k] < r[l]
    requires forall k :: 0 <= k < |r| ==> 1 <= r[k] < NumColors
    requires forall c :: 1 <= c < NumColors ==> c in r
    ensures r == [1, 2, 3, 4, 5, 6, 7, 8, 9]
  {
    IncreasingPrefix(r, 9);
    IncreasingUpperBound(r, 0);
    assert forall k :: 0 <= k < |r| ==> r[k] == [1, 2, 3, 4, 5, 6, 7, 8, 9][k];
  }

  /** The first `m` entries of such a list are 1..m. */
  lemma {:induction false} IncreasingPrefix(r: seq<nat>, m: nat)
    requires forall k, l :: 0 <= k < l < |r| ==> r[k] < r[l]
    requires forall k :: 0 <= k < |r| ==> 1 <= r[k] < NumColors
    requires forall c :: 1 <= c < NumColors ==> c in r
    requires m < NumColors
    ensures |r| >= m && forall k :: 0 <= k < m ==> r[k] == k + 1
  {
    if m > 0 {
      IncreasingPrefix(r, m - 1);
      assert m in r;
      var k :| 0 <= k < |r| && r[k] == m;
      IncreasingLowerBound(r, k);
    }
  }

  lemma {:induction false} IncreasingLowerBound(r: seq<nat>, k: nat)
    requires forall a, b :: 0 <= a < b < |r| ==> r[a] < r[b]
    requires forall a :: 0 <= a < |r| ==> 1 <= r[a]
    requires k < |r|
    ensures r[k] >= k + 1
  {
    if k > 0 {
      IncreasingLowerBound(r, k - 1);
    }
  }

  lemma {:induction false} IncreasingUpperBound(r: seq<nat>, k: nat)
    requires forall a, b :: 0 <= a < b < |r| ==> r[a] < r[b]
    requires forall a :: 0 <= a < |r| ==> r[a] < NumColors
    requires k < |r|
    ensures r[k] <= NumColors - |r| + k
    decreases |r| - k
  {
    if k < |r| - 1 {
      IncreasingUpperBound(r, k + 1);
    }
  }

  /** The list `least_common_color` draws from, as written, holds only
      least-common colours. */
  lemma MinIndicesAsWrittenLeastCommon(occ: seq<nat>)
    requires |occ| == NumColors
    ensures |MinIndicesAsWritten(occ)| == |MinIndices(occ)| + 1
    ensures forall k :: 0 <= k < |MinIndicesAsWritten(occ)| ==>
      MinIndicesAsWritten(occ)[k] < NumColors && IsLeastCommon(occ, MinIndicesAsWritten(occ)[k])
  {
    MinIndicesAsWrittenRepeatsFirst(occ);
    var r := MinIndices(occ);
    forall k | 0 <= k < |r| ensures r[k] < NumColors && IsLeastCommon(occ, r[k]) {
      assert IsLeastCommon(occ, r[k]);
    }
  }

  /** `least_common_color(array)`: a colour 1..9 of least count, drawn from the
      candidate list exactly as the source builds it. `pick` is the random
      draw, reduced to an index of that list. */
  function LeastCommonColor(g: Grid, pick: nat): (r: Result<nat>)
    ensures r.Err? <==> Occurrences(g).Err?
    ensures r.Err? ==> r.error == IndexError
    ensures r.Ok? ==> r.value < NumColors && IsLeastCommon(Occurrences(g).value, r.value)
  {
    match Occurrences(g)
    case Err(e) => Err(e)
    case Ok(occ) =>
      MinIndicesAsWrittenLeastCommon(occ);
      var mins := MinIndicesAsWritten(occ);
      Ok(mins[pick % |mins|])
  }

  /** Draw `k` (for `k` within the list) selects the `k`-th entry of the list as written. */
  lemma LeastCommonColorPick(g: Grid, k: nat)
    requires Occurrences(g).Ok? && k < |MinIndicesAsWritten(Occurrences(g).value)|
    ensures LeastCommonColor(g, k) == Ok(MinIndicesAsWritten(Occurrences(g).value)[k])
  {
    var occ := Occurrences(g).value;
    var mins := MinIndicesAsWritten(occ);
    ModSmall(k, |mins|);
    assert Occurrences(g) == Ok(occ);
  }

  /** Every least-common colour is some draw's result. */
  lemma LeastCommonColorReachesAll(g: Grid, c: nat)
    requires Occurrences(g).Ok? && c < NumColors && IsLeastCommon(Occurrences(g).value, c)
    ensures exists pick: nat :: LeastCommonColor(g, pick) == Ok(c)
  {
    var occ := Occurrences(g).value;
    var mins := MinIndices(occ);
    assert c in mins;
    var k :| 0 <= k < |mins| && mins[k] == c;
    MinIndicesAsWrittenRepeatsFirst(occ);
    assert MinIndicesAsWritten(occ)[k + 1] == c;
    LeastCommonColorPick(g, k + 1);
  }

  /** The bias of the list as written: draws 0 and 1 both give the smallest
      least-common colour, and draw `k` for `1 <= k <= n` gives the `(k-1)`-th
      of the `n` least-common colours, so the smallest one takes two of the
      `n + 1` draws. */
  lemma LeastCommonColorFavoursFirst(g: Grid)
    requires Occurrences(g).Ok?
    ensures var mins := MinIndices(Occurrences(g).value);
      && LeastCommonColor(g, 0) == Ok(mins[0])
      && forall k :: 1 <= k <= |mins| ==> LeastCommonColor(g, k) == Ok(mins[k - 1])
  {
    var occ := Occurrences(g).value;
    MinIndicesAsWrittenRepeatsFirst(occ);
    LeastCommonColorPick(g, 0);
    forall k | 1 <= k <= |MinIndices(occ)| ensures LeastCommonColor(g, k) == Ok(MinIndices(occ)[k - 1]) {
      LeastCommonColorPick(g, k);
    }
  }

  /** The evidently intended `least_common_color`, drawing from the list that
      holds each least-common colour once. */
  function LeastCommonColorFixed(g: Grid, pick: nat): (r: Result<nat>)
    ensures r.Err? <==> Occurrences(g).Err?
    ensures r.Err? ==> r.error == IndexError
    ensures r.Ok? ==> IsLeastCommon(Occurrences(g).value, r.value)
  {
    match Occurrences(g)
    case Err(e) => Err(e)
    case Ok(occ) =>
      var mins := MinIndices(occ);
      Ok(mins[pick % |mins|])
  }

  /** The corrected draw is uniform: the draws `0 .. n-1` give the `n`
      least-common colours, each exactly once. */
  lemma LeastCommonColorFixedUniform(g: Grid)
    requires Occurrences(g).Ok?
    ensures var occ := Occurrences(g).value;
      forall c :: 0 <= c < NumColors && IsLeastCommon(occ, c) <==>
        exists k :: 0 <= k < |MinIndices(occ)| && LeastCommonColorFixed(g, k) == Ok(c)
    ensures forall k, l :: 0 <= k < l < |MinIndices(Occurrences(g).value)| ==>
      LeastCommonColorFixed(g, k) != LeastCommonColorFixed(g, l)
  {
    var occ := Occurrences(g).value;
    var mins := MinIndices(occ);
    assert Occurrences(g) == Ok(occ);
    forall k | 0 <= k < |mins| ensures LeastCommonColorFixed(g, k) == Ok(mins[k]) {
      ModSmall(k, |mins|);
    }
    forall c | 0 <= c < NumColors && IsLeastCommon(occ, c)
      ensures exists k :: 0 <= k < |mins| && LeastCommonColorFixed(g, k) == Ok(c)
    {
      assert c in mins;
      var k :| 0 <= k < |mins| && mins[k] == c;
      assert LeastCommonColorFixed(g, k) == Ok(c);
    }
  }

  lemma ModSmall(k: nat, n: nat)
    requires k < n
    ensures k % n == k
  {
  }

  /** `make_same_grid(array, color)`: every black (0) cell takes the colour, all
      other cells are kept. Without a colour, the least common one is used. */
  function MakeSameGrid(g: Grid, color: Option<int>, pick: nat): (r: Result<Grid>)
    ensures r.Ok? <==> color.Some? || LeastCommonColor(g, pick).Ok?
    ensures r.Err? ==> r.error == IndexError
    ensures r.Ok? ==> SameShape(r.value, g)
    ensures r.Ok? ==> forall i, j :: InBounds(g, i, j) ==>
      r.value[i][j] == (if g[i][j] == 0 then (if color.Some? then color.value else LeastCommonColor(g, pick).value) else g[i][j])
  {
    var c :- if color.Some? then Ok(color.value) else LeastCommonColor(g, pick);
    Ok(seq(|g|, i requires 0 <= i < |g| =>
      seq(Width(g), j requires 0 <= j < Width(g) => if g[i][j] == 0 then c else g[i][j])))
  }

  /** Filling with a colour is laying the grid over a full grid of that colour. */
  lemma MakeSameGridIsOverlay(g: Grid, c: int)
    ensures MakeSameGrid(g, Some(c), 0) == Ok(Overlay(g, MakeGrid(|g|, Width(g), c), 0))
  {
    var r := MakeSameGrid(g, Some(c), 0).value;
    var o := Overlay(g, MakeGrid(|g|, Width(g), c), 0);
    CellsEqual(r, o);
  }

  // ---------------------------------------------------------------------------
  // Rotations and flips

  /** `np.rot90(g)`: a quarter turn counter-clockwise. */
  function Rot90(g: Grid): (r: Grid)
    ensures |r| == Width(g) && (|r| > 0 ==> Width(r) == |g|)
    ensures forall i, j :: 0 <= i < Width(g) && 0 <= j < |g| ==> r[i][j] == g[j][Width(g) - 1 - i]
  {
    seq(Width(g), i requires 0 <= i < Width(g) =>
      seq(|g|, j requires 0 <= j < |g| => g[j][Width(g) - 1 - i]))
  }

  /** `np.flipud(g)`: the rows in reverse order. */
  function FlipUD(g: Grid): (r: Grid)
    ensures SameShape(r, g)
    ensures forall i, j :: InBounds(g, i, j) ==> r[i][j] == g[|g| - 1 - i][j]
  {
    seq(|g|, i requires 0 <= i < |g| => g[|g| - 1 - i])
  }

  /** `np.fliplr(g)`: every row reversed. */
  function FlipLR(g: Grid): (r: Grid)
    ensures SameShape(r, g)
    ensures forall i, j :: InBounds(g, i, j) ==> r[i][j] == g[i][Width(g) - 1 - j]
  {
    seq(|g|, i requires 0 <= i < |g| =>
      seq(Width(g), j requires 0 <= j < Width(g) => g[i][Width(g) - 1 - j]))
  }

  /** `rotate_90_CCW`: a quarter turn swaps the grid's height and width. */
  function Rotate90CCW(g: Grid): (r: Grid)
    ensures NonEmpty(g) ==> NonEmpty(r) && |r| == Width(g) && Width(r) == |g|
    ensures forall i, j :: 0 <= i < Width(g) && 0 <= j < |g| ==> r[i][j] == g[j][Width(g) - 1 - i]
  {
    Rot90(g)
  }

  /** `rotate_180_CCW`: two quarter turns, which keep the grid's shape. */
  function Rotate180(g: Grid): (r: Grid)
    ensures NonEmpty(g) ==> NonEmpty(r) && SameShape(r, g)
  {
    Rot90(Rot90(g))
  }

  /** `rotate_90_CW`: three quarter turns counter-clockwise. */
  function Rotate90CW(g: Grid): (r: Grid)
    ensures NonEmpty(g) ==> NonEmpty(r) && |r| == Width(g) && Width(r) == |g|
  {
    Rot90(Rotate180(g))
  }

  /** `flip_down_diagonal`: `rot90(fliplr(g))`. */
  function FlipDownDiagonal(g: Grid): (r: Grid)
    ensures NonEmpty(g) ==> NonEmpty(r) && |r| == Width(g) && Width(r) == |g|
  {
    Rot90(FlipLR(g))
  }

  /** `flip_up_diagonal`: `rotate_90_CW(fliplr(g))`. */
  function FlipUpDiagonal(g: Grid): (r: Grid)
    ensures NonEmpty(g) ==> NonEmpty(r) && |r| == Width(g) && Width(r) == |g|
  {
    Rotate90CW(FlipLR(g))
  }

  lemma Rotate180Cells(g: Grid)
    requires NonEmpty(g)
    ensures SameShape(Rotate180(g), g)
    ensures forall i, j :: InBounds(g, i, j) ==> Rotate180(g)[i][j] == g[|g| - 1 - i][Width(g) - 1 - j]
  {
  }

  lemma Rotate90CWCells(g: Grid)
    requires NonEmpty(g)
    ensures |Rotate90CW(g)| == Width(g) && Width(Rotate90CW(g)) == |g|
    ensures forall i, j :: 0 <= i < Width(g) && 0 <= j < |g| ==> Rotate90CW(g)[i][j] == g[|g| - 1 - j][i]
  {
    Rotate180Cells(g);
  }

  /** `rotate_90_CW` undoes `rotate_90_CCW` and the other way round. */
  lemma RotationsInverse(g: Grid)
    requires NonEmpty(g)
    ensures Rotate90CW(Rotate90CCW(g)) == g
    ensures Rotate90CCW(Rotate90CW(g)) == g
  {
    CWAfterCCW(g);
    CCWAfterCW(g);
  }

  lemma CWAfterCCW(g: Grid)
    requires NonEmpty(g)
    ensures Rotate90CW(Rotate90CCW(g)) == g
  {
    var r := Rotate90CCW(g);
    var a := Rotate90CW(r);
    Rotate90CWCells(r);
    forall i | 0 <= i < |g| ensures a[i] == g[i] {
      assert |a[i]| == |g[i]|;
      assert forall j :: 0 <= j < Width(g) ==> a[i][j] == r[|r| - 1 - j][i] == g[i][j];
    }
  }

  lemma CCWAfterCW(g: Grid)
    requires NonEmpty(g)
    ensures Rotate90CCW(Rotate90CW(g)) == g
  {
    var r := Rotate90CW(g);
    var b := Rotate90CCW(r);
    Rotate90CWCells(g);
    forall i | 0 <= i < |g| ensures b[i] == g[i] {
      assert |b[i]| == |g[i]|;
      assert forall j :: 0 <= j < Width(g) ==> b[i][j] == r[j][|g| - 1 - i] == g[i][j];
    }
  }

  lemma FlipsAreInvolutions(g: Grid)
    ensures FlipUD(FlipUD(g)) == g
    ensures FlipLR(FlipLR(g)) == g
  {
    var a := FlipLR(FlipLR(g));
    assert forall i :: 0 <= i < |g| ==> a[i] == g[i];
  }

  /** `flip_down_diagonal` is the transpose. */
  lemma FlipDownDiagonalCells(g: Grid)
    requires NonEmpty(g)
    ensures |FlipDownDiagonal(g)| == Width(g) && Width(FlipDownDiagonal(g)) == |g|
    ensures forall i, j :: 0 <= i < Width(g) && 0 <= j < |g| ==> FlipDownDiagonal(g)[i][j] == g[j][i]
  {
  }

  /** `flip_up_diagonal` reflects across the anti-diagonal. */
  lemma FlipUpDiagonalCells(g: Grid)
    requires NonEmpty(g)
    ensures |FlipUpDiagonal(g)| == Width(g) && Width(FlipUpDiagonal(g)) == |g|
    ensures forall i, j :: 0 <= i < Width(g) && 0 <= j < |g| ==>
      FlipUpDiagonal(g)[i][j] == g[|g| - 1 - j][Width(g) - 1 - i]
  {
    Rotate90CWCells(FlipLR(g));
  }

  // ---------------------------------------------------------------------------
  // overlay and the mirrors

  /** `overlay(arr1, function)` with `b == function(arr1)`: the result has the
      shape of `a`, and each cell is `b`'s cell if that is nonzero, else `a`'s.
      Reading a cell of `b` outside its bounds is an `IndexError`. */
  function OverlayWith(a: Grid, b: Grid): (r: Result<Grid>)
    ensures r.Ok? <==> |a| == 0 || Width(a) == 0 || (|a| <= |b| && Width(a) <= Width(b))
    ensures r.Err? ==> r.error == IndexError
    ensures r.Ok? ==> SameShape(r.value, a)
    ensures r.Ok? ==> forall i, j :: InBounds(a, i, j) ==>
      r.value[i][j] == (if b[i][j] != 0 then b[i][j] else a[i][j])
  {
    if |a| == 0 || Width(a) == 0 then Ok(a)
    else if |a| <= |b| && Width(a) <= Width(b) then Ok(Overlay(SubGrid(b, 0, 0, |a|, Width(a)), a, 0))
    else Err(IndexError)
  }

  datatype Mirror =
    | MirrorDownDiagonal | MirrorUpDiagonal | MirrorHorizontal | MirrorVertical
    | Mirror90CCW | Mirror180CCW | Mirror90CW

  /** The transform each mirror overlays onto its argument. */
  function MirrorTransform(m: Mirror, g: Grid): (r: Grid)
    ensures m.MirrorHorizontal? || m.MirrorVertical? ==> SameShape(r, g)
    ensures (m.MirrorDownDiagonal? || m.MirrorUpDiagonal?) && NonEmpty(g) && |g| == Width(g) ==> SameShape(r, g)
  {
    match m
    case MirrorDownDiagonal =>
      if NonEmpty(g) then FlipDownDiagonalCells(g); FlipDownDiagonal(g) else FlipDownDiagonal(g)
    case MirrorUpDiagonal =>
      if NonEmpty(g) then FlipUpDiagonalCells(g); FlipUpDiagonal(g) else FlipUpDiagonal(g)
    case MirrorHorizontal => FlipUD(g)
    case MirrorVertical => FlipLR(g)
    case Mirror90CCW => Rotate90CCW(g)
    case Mirror180CCW => Rotate180(g)
    case Mirror90CW => Rotate90CW(g)
  }

  /** `mirror_*(array) == overlay(array, transform)`. */
  function ApplyMirror(m: Mirror, g: Grid): (r: Result<Grid>)
    ensures m in Mirrors && NonEmpty(g) && |g| == Width(g) ==> r.Ok?
  {
    OverlayWith(g, MirrorTransform(m, g))
  }

  /** `MIRRORS`, the mirrors `check_symmetry` compares the grid with. */
  const Mirrors: seq<Mirror> := [MirrorDownDiagonal, MirrorUpDiagonal, MirrorHorizontal, MirrorVertical]

  /** `mirror_cascade(mirrors)(grid)`: the mirrors applied in order; the first
      failure propagates. */
  function MirrorCascade(ms: seq<Mirror>, g: Grid): Result<Grid> {
    if |ms| == 0 then Ok(g)
    else
      match ApplyMirror(ms[0], g)
      case Err(e) => Err(e)
      case Ok(g') => MirrorCascade(ms[1..], g')
  }

  /** Running a cascade of `a + b` is running `a` and then `b` on its result;
      the empty cascade is the identity. */
  lemma {:induction false} MirrorCascadeAppend(a: seq<Mirror>, b: seq<Mirror>, g: Grid)
    ensures MirrorCascade([], g) == Ok(g)
    ensures MirrorCascade(a + b, g) ==
      match MirrorCascade(a, g)
      case Err(e) => Err(e)
      case Ok(g') => MirrorCascade(b, g')
    decreases |a|
  {
    if |a| > 0 {
      assert (a + b)[0] == a[0] && (a + b)[1..] == a[1..] + b;
      match ApplyMirror(a[0], g)
      case Err(e) =>
      case Ok(g') => MirrorCascadeAppend(a[1..], b, g');
    } else {
      assert a + b == b;
    }
  }

  /** `check_symmetry` over a list of mirrors: stop with `False` at the first
      mirror that changes the grid; a mirror that raises propagates its error. */
  function CheckSymmetryWith(g: Grid, ms: seq<Mirror>): (r: Result<bool>)
    ensures r == Ok(true) <==> forall k :: 0 <= k < |ms| ==> ApplyMirror(ms[k], g) == Ok(g)
    ensures r == Ok(false) <==> exists k :: 0 <= k < |ms| && FirstChange(g, ms, k) && ApplyMirror(ms[k], g).Ok?
    ensures r.Err? <==> exists k :: 0 <= k < |ms| && FirstChange(g, ms, k) && ApplyMirror(ms[k], g).Err?
  {
    if |ms| == 0 then Ok(true)
    else
      match ApplyMirror(ms[0], g)
      case Err(e) =>
        assert FirstChange(g, ms, 0);
        Err(e)
      case Ok(h) =>
        if g != h then
          assert FirstChange(g, ms, 0);
          Ok(false)
        else
          FirstChangeShift(g, ms);
          CheckSymmetryWith(g, ms[1..])
  }

  /** Mirror `k` is the first of `ms` that does not give the grid back. */
  predicate FirstChange(g: Grid, ms: seq<Mirror>, k: nat)
    requires k < |ms|
  {
    ApplyMirror(ms[k], g) != Ok(g) && forall j :: 0 <= j < k ==> ApplyMirror(ms[j], g) == Ok(g)
  }

  /** When the first mirror gives the grid back, the first change in `ms` is
      one position later than in `ms[1..]`. */
  lemma FirstChangeShift(g: Grid, ms: seq<Mirror>)
    requires |ms| > 0 && ApplyMirror(ms[0], g) == Ok(g)
    ensures !FirstChange(g, ms, 0)
    ensures (forall k :: 0 <= k < |ms| ==> ApplyMirror(ms[k], g) == Ok(g))
      <==> (forall k :: 0 <= k < |ms[1..]| ==> ApplyMirror(ms[1..][k], g) == Ok(g))
    ensures (exists k :: 0 <= k < |ms| && FirstChange(g, ms, k) && ApplyMirror(ms[k], g).Ok?)
      <==> (exists k :: 0 <= k < |ms[1..]| && FirstChange(g, ms[1..], k) && ApplyMirror(ms[1..][k], g).Ok?)
    ensures (exists k :: 0 <= k < |ms| && FirstChange(g, ms, k) && ApplyMirror(ms[k], g).Err?)
      <==> (exists k :: 0 <= k < |ms[1..]| && FirstChange(g, ms[1..], k) && ApplyMirror(ms[1..][k], g).Err?)
  {
    var tail := ms[1..];
    assert forall k :: 0 <= k < |tail| ==> tail[k] == ms[k + 1];
    FirstChangeShiftExists(g, ms, true);
    FirstChangeShiftExists(g, ms, false);
  }

  /** The first change in `ms` that raises (or does not) is one position later
      than the first change in `ms[1..]`. */
  lemma FirstChangeShiftExists(g: Grid, ms: seq<Mirror>, raises: bool)
    requires |ms| > 0 && ApplyMirror(ms[0], g) == Ok(g)
    ensures (exists k :: 0 <= k < |ms| && FirstChange(g, ms, k) && ApplyMirror(ms[k], g).Err? == raises)
      <==> (exists k :: 0 <= k < |ms[1..]| && FirstChange(g, ms[1..], k) && ApplyMirror(ms[1..][k], g).Err? == raises)
  {
    var tail := ms[1..];
    FirstChangeShiftAt(g, ms);
    if exists k :: 0 <= k < |ms| && FirstChange(g, ms, k) && ApplyMirror(ms[k], g).Err? == raises {
      var k :| 0 <= k < |ms| && FirstChange(g, ms, k) && ApplyMirror(ms[k], g).Err? == raises;
      assert k > 0;
      assert tail[k - 1] == ms[k];
      assert FirstChange(g, tail, k - 1);
    }
    if exists k :: 0 <= k < |tail| && FirstChange(g, tail, k) && ApplyMirror(tail[k], g).Err? == raises {
      var k :| 0 <= k < |tail| && FirstChange(g, tail, k) && ApplyMirror(tail[k], g).Err? == raises;
      assert tail[k] == ms[k + 1];
      assert FirstChange(g, ms, k + 1);
    }
  }

  /** Position by position: a first change in `ms[1..]` at `k` is one in `ms` at `k + 1`. */
  lemma FirstChangeShiftAt(g: Grid, ms: seq<Mirror>)
    requires |ms| > 0 && ApplyMirror(ms[0], g) == Ok(g)
    ensures forall k :: 0 <= k < |ms| - 1 ==> (FirstChange(g, ms[1..], k) <==> FirstChange(g, ms, k + 1))
  {
    forall k | 0 <= k < |ms| - 1 ensures FirstChange(g, ms[1..], k) <==> FirstChange(g, ms, k + 1) {
      FirstChangeShiftOne(g, ms, k);
    }
  }

  lemma FirstChangeShiftOne(g: Grid, ms: seq<Mirror>, k: nat)
    requires |ms| > 0 && ApplyMirror(ms[0], g) == Ok(g) && k < |ms| - 1
    ensures FirstChange(g, ms[1..], k) <==> FirstChange(g, ms, k + 1)
  {
    var fixes := Fixes(g);
    FirstFailureShift(fixes, ms, k);
    assert FirstChange(g, ms[1..], k) == FirstFailure(fixes, ms[1..], k);
    assert FirstChange(g, ms, k + 1) == FirstFailure(fixes, ms, k + 1);
  }

  /** Whether a mirror gives the grid back. */
  function Fixes(g: Grid): Mirror -> bool {
    m => ApplyMirror(m, g) == Ok(g)
  }

  /** Position `k` is the first of `xs` where `p` fails. */
  predicate FirstFailure<T>(p: T -> bool, xs: seq<T>, k: nat)
    requires k < |xs|
  {
    !p(xs[k]) && forall j :: 0 <= j < k ==> p(xs[j])
  }

  /** When `p` holds of the head, the first failure in the tail at `k` is the
      first failure of the whole list at `k + 1`. */
  lemma FirstFailureShift<T>(p: T -> bool, xs: seq<T>, k: nat)
    requires |xs| > 0 && p(xs[0]) && k < |xs| - 1
    ensures FirstFailure(p, xs[1..], k) <==> FirstFailure(p, xs, k + 1)
  {
    var tail := xs[1..];
    assert tail[k] == xs[k + 1];
    if FirstFailure(p, tail, k) {
      forall j | 0 <= j < k + 1 ensures p(xs[j]) {
        if j > 0 {
          assert xs[j] == tail[j - 1];
        }
      }
    }
    if FirstFailure(p, xs, k + 1) {
      forall j | 0 <= j < k ensures p(tail[j]) {
        assert tail[j] == xs[j + 1];
      }
    }
  }

  /** `check_symmetry(array)`: `True` when all four mirrors give the grid back,
      `False` at the first that changes it, and the error of the first that
      raises. */
  function CheckSymmetry(g: Grid): (r: Result<bool>)
    ensures r == Ok(true) <==> forall k :: 0 <= k < |Mirrors| ==> ApplyMirror(Mirrors[k], g) == Ok(g)
    ensures r == Ok(false) <==> exists k :: 0 <= k < |Mirrors| && FirstChange(g, Mirrors, k) && ApplyMirror(Mirrors[k], g).Ok?
    ensures r.Err? <==> exists k :: 0 <= k < |Mirrors| && FirstChange(g, Mirrors, k) && ApplyMirror(Mirrors[k], g).Err?
  {
    CheckSymmetryWith(g, Mirrors)
  }

  /** Overlaying a grid with itself gives the grid back. */
  lemma OverlaySelf(g: Grid)
    ensures OverlayWith(g, g) == Ok(g)
  {
    if |g| > 0 && Width(g) > 0 {
      CellsEqual(OverlayWith(g, g).value, g);
    }
  }

  /** A grid that overlaying `t` leaves unchanged agrees with `t` on every cell
      whose partner cell holds the swapped value: a zero cell of `t` could not
      stay hidden under a nonzero partner. */
  lemma OverlayFixedCell(g: Grid, t: Grid, i: nat, j: nat, i': nat, j': nat)
    requires SameShape(g, t) && InBounds(g, i, j) && InBounds(g, i', j')
    requires t[i][j] == g[i'][j'] && t[i'][j'] == g[i][j]
    requires OverlayWith(g, t) == Ok(g)
    ensures t[i][j] == g[i][j]
  {
    var o := OverlayWith(g, t).value;
    assert o[i][j] == g[i][j];
    assert o[i'][j'] == g[i'][j'];
  }

  lemma CellsEqual(a: Grid, b: Grid)
    requires SameShape(a, b)
    requires forall i, j :: InBounds(a, i, j) ==> a[i][j] == b[i][j]
    ensures a == b
  {
    forall i | 0 <= i < |a| ensures a[i] == b[i] {
      assert |a[i]| == |b[i]|;
      assert forall j :: 0 <= j < |a[i]| ==> a[i][j] == b[i][j];
    }
  }

  /** Overlaying `t` leaves `g` unchanged exactly when `t == g`, for a `t` that
      moves every cell to its partner under an involution of the positions;
      `partner` is that involution (transpose, anti-transpose, or a flip). */
  lemma OverlayFixedIff(g: Grid, t: Grid, m: Mirror)
    requires m in {MirrorDownDiagonal, MirrorUpDiagonal, MirrorHorizontal, MirrorVertical}
    requires SameShape(g, t)
    requires m in {MirrorDownDiagonal, MirrorUpDiagonal} ==> |g| == Width(g)
    requires forall i, j :: InBounds(g, i, j) ==>
      t[i][j] == g[Partner(m, |g|, Width(g), i, j).0][Partner(m, |g|, Width(g), i, j).1]
    ensures OverlayWith(g, t) == Ok(g) <==> t == g
  {
    OverlaySelf(g);
    if OverlayWith(g, t) == Ok(g) {
      forall i, j | InBounds(g, i, j) ensures t[i][j] == g[i][j] {
        var p := Partner(m, |g|, Width(g), i, j);
        PartnerInvolutive(m, |g|, Width(g), i, j);
        OverlayFixedCell(g, t, i, j, p.0, p.1);
      }
      CellsEqual(t, g);
    }
  }

  /** The cell each symmetry mirror's transform reads for position (i, j) of an
      h-by-w grid. */
  function Partner(m: Mirror, h: nat, w: nat, i: nat, j: nat): (p: (nat, nat))
    requires i < h && j < w
    requires m in {MirrorDownDiagonal, MirrorUpDiagonal} ==> h == w
    ensures p.0 < h && p.1 < w
  {
    match m
    case MirrorDownDiagonal => (j, i)
    case MirrorUpDiagonal => (w - 1 - j, h - 1 - i)
    case MirrorHorizontal => (h - 1 - i, j)
    case MirrorVertical => (i, w - 1 - j)
    case _ => (i, j)
  }

  lemma PartnerInvolutive(m: Mirror, h: nat, w: nat, i: nat, j: nat)
    requires i < h && j < w
    requires m in {MirrorDownDiagonal, MirrorUpDiagonal} ==> h == w
    ensures var p := Partner(m, h, w, i, j); Partner(m, h, w, p.0, p.1) == (i, j)
  {
  }

  lemma MirrorDownDiagonalFixed(g: Grid)
    requires NonEmpty(g) && |g| == Width(g)
    ensures ApplyMirror(MirrorDownDiagonal, g) == Ok(g) <==> FlipDownDiagonal(g) == g
  {
    FlipDownDiagonalCells(g);
    OverlayFixedIff(g, FlipDownDiagonal(g), MirrorDownDiagonal);
  }

  lemma MirrorUpDiagonalFixed(g: Grid)
    requires NonEmpty(g) && |g| == Width(g)
    ensures ApplyMirror(MirrorUpDiagonal, g) == Ok(g) <==> FlipUpDiagonal(g) == g
  {
    FlipUpDiagonalCells(g);
    OverlayFixedIff(g, FlipUpDiagonal(g), MirrorUpDiagonal);
  }

  lemma MirrorHorizontalFixed(g: Grid)
    ensures ApplyMirror(MirrorHorizontal, g) == Ok(g) <==> FlipUD(g) == g
  {
    OverlayFixedIff(g, FlipUD(g), MirrorHorizontal);
  }

  lemma MirrorVerticalFixed(g: Grid)
    ensures ApplyMirror(MirrorVertical, g) == Ok(g) <==> FlipLR(g) == g
  {
    OverlayFixedIff(g, FlipLR(g), MirrorVertical);
  }

  /** `check_symmetry` passes exactly when each of the four mirrors leaves the grid unchanged. */
  lemma CheckSymmetryEach(g: Grid)
    ensures CheckSymmetry(g) == Ok(true) <==>
      && ApplyMirror(MirrorDownDiagonal, g) == Ok(g) && ApplyMirror(MirrorUpDiagonal, g) == Ok(g)
      && ApplyMirror(MirrorHorizontal, g) == Ok(g) && ApplyMirror(MirrorVertical, g) == Ok(g)
  {
    var fixes := m => ApplyMirror(m, g) == Ok(g);
    AllOfFour(fixes, Mirrors);
    assert fixes(MirrorDownDiagonal) == (ApplyMirror(MirrorDownDiagonal, g) == Ok(g));
  }

  lemma AllOfFour<T>(p: T -> bool, xs: seq<T>)
    requires |xs| == 4
    ensures (forall k :: 0 <= k < |xs| ==> p(xs[k])) <==> p(xs[0]) && p(xs[1]) && p(xs[2]) && p(xs[3])
  {
  }

  /** A square grid passes `check_symmetry` exactly when it equals its
      transpose, its anti-transpose, and its up/down and left/right flips. */
  lemma CheckSymmetrySquare(g: Grid)
    requires NonEmpty(g) && |g| == Width(g)
    ensures CheckSymmetry(g) == Ok(true) <==>
      && FlipDownDiagonal(g) == g && FlipUpDiagonal(g) == g
      && FlipUD(g) == g && FlipLR(g) == g
    ensures CheckSymmetry(g).Ok?
  {
    assert forall k :: 0 <= k < |Mirrors| ==> Mirrors[k] in Mirrors;
    CheckSymmetryEach(g);
    MirrorDownDiagonalFixed(g);
    MirrorUpDiagonalFixed(g);
    MirrorHorizontalFixed(g);
    MirrorVerticalFixed(g);
  }

  /** A non-square grid makes `check_symmetry` raise: its first mirror transposes
      the grid, and overlaying a transposed grid reads outside it. */
  lemma CheckSymmetryNonSquare(g: Grid)
    requires NonEmpty(g) && |g| != Width(g)
    ensures CheckSymmetry(g) == Err(IndexError)
  {
    FlipDownDiagonalCells(g);
  }

  // ---------------------------------------------------------------------------
  // tile and subset_tile

  /** `row * n` for a Python list: `n` copies, none when `n <= 0`. */
  function RepeatRow(row: seq<int>, n: int): (r: seq<int>)
    ensures n <= 0 ==> r == []
    ensures n > 0 ==> |r| == n * |row|
    ensures n > 0 ==> r[..|row|] == row
    ensures forall j :: |row| <= j < |r| ==> r[j] == r[j - |row|]
    decreases n
  {
    if n <= 0 then [] else row + RepeatRow(row, n - 1)
  }

  /** `rows` followed by `copies - 1` more copies of itself. */
  function Copies(rows: seq<seq<int>>, copies: nat): (r: seq<seq<int>>)
    requires copies >= 1
    ensures |r| == copies * |rows|
    ensures r[..|rows|] == rows
    ensures forall i :: |rows| <= i < |r| ==> r[i] == r[i - |rows|]
  {
    if copies == 1 then rows else Copies(rows, copies - 1) + rows
  }

  /** The list `tile(pattern, width, height)` builds before `subset_tile`:
      every pattern row repeated `width` times, and the widened pattern stacked
      once plus once per `i` in `range(1, height)`, so a `height` below 1 still
      gives one copy. */
  function TileRows(pattern: Grid, width: int, height: int): (t: Grid)
    ensures |t| == (if height < 1 then 1 else height) * |pattern|
    ensures forall i :: 0 <= i < |pattern| && i < |t| ==> t[i] == RepeatRow(pattern[i], width)
    ensures forall i :: |pattern| <= i < |t| ==> t[i] == t[i - |pattern|]
  {
    var widened := seq(|pattern|, i requires 0 <= i < |pattern| => RepeatRow(pattern[i], width));
    var copies: nat := if height < 1 then 1 else height;
    if |pattern| == 0 then
      Copies(widened, copies)
    else
      var w := |RepeatRow(pattern[0], width)|;
      assert forall i :: 0 <= i < |widened| ==> |widened[i]| == w;
      CopiesUniform(widened, copies, w);
      Copies(widened, copies)
  }

  /** Copies of rows of one length are rows of that length. */
  lemma CopiesUniform(rows: seq<seq<int>>, copies: nat, w: nat)
    requires copies >= 1
    requires forall k :: 0 <= k < |rows| ==> |rows[k]| == w
    ensures forall i :: 0 <= i < |Copies(rows, copies)| ==> |Copies(rows, copies)[i]| == w
  {
    forall i | 0 <= i < |Copies(rows, copies)| ensures |Copies(rows, copies)[i]| == w {
      CopiesRowLengths(rows, copies, i, w);
    }
  }

  lemma {:induction false} CopiesRowLengths(rows: seq<seq<int>>, copies: nat, i: nat, w: nat)
    requires copies >= 1
    requires forall k :: 0 <= k < |rows| ==> |rows[k]| == w
    requires i < |Copies(rows, copies)|
    ensures |Copies(rows, copies)[i]| == w
    decreases i
  {
    if i >= |rows| {
      CopiesRowLengths(rows, copies, i - |rows|, w);
    } else {
      assert Copies(rows, copies)[i] == Copies(rows, copies)[..|rows|][i];
    }
  }

  /** `subset_tile(tile)`: the top-left sub-grid that keeps `rows - dropRows`
      rows and `cols - dropCols` columns, the amounts being the generator's
      random draw from 0..2. A negative keep count is a Python slice from the
      end. A tile with no rows is a 1-D numpy array, whose `shape[1]` is an
      `IndexError`. */
  function SubsetTile(t: Grid, dropRows: nat, dropCols: nat): (r: Result<Grid>)
    requires dropRows <= 2 && dropCols <= 2
    ensures r.Ok? <==> |t| > 0
    ensures r.Err? ==> r.error == IndexError
    ensures r.Ok? ==> |r.value| == (if |t| >= dropRows then |t| - dropRows else 0)
    ensures r.Ok? && |r.value| > 0 ==> Width(r.value) == (if Width(t) >= dropCols then Width(t) - dropCols else 0)
    ensures r.Ok? ==> forall i, j :: InBounds(r.value, i, j) ==> InBounds(t, i, j) && r.value[i][j] == t[i][j]
  {
    if |t| == 0 then Err(IndexError)
    else
      var keepRows := SliceBound(|t|, |t| - dropRows);
      var keepCols := SliceBound(Width(t), Width(t) - dropCols);
      Ok(SubGrid(t, 0, 0, keepRows, keepCols))
  }

  /** `tile(pattern, width, height)` including the final `subset_tile`. */
  function Tile(pattern: Grid, width: int, height: int, dropRows: nat, dropCols: nat): (r: Result<Grid>)
    requires dropRows <= 2 && dropCols <= 2
    ensures r.Ok? <==> |pattern| > 0
    ensures r.Err? ==> r.error == IndexError
    ensures r.Ok? ==>
      var rows := (if height < 1 then 1 else height) * |pattern|;
      |r.value| == (if rows >= dropRows then rows - dropRows else 0)
    ensures r.Ok? && |r.value| > 0 ==>
      var cols := if width <= 0 then 0 else width * |pattern[0]|;
      Width(r.value) == (if cols >= dropCols then cols - dropCols else 0)
    ensures r.Ok? ==> forall i, j :: InBounds(r.value, i, j) ==>
      InBounds(TileRows(pattern, width, height), i, j) && r.value[i][j] == TileRows(pattern, width, height)[i][j]
  {
    SubsetTile(TileRows(pattern, width, height), dropRows, dropCols)
  }
}

=== FILE: task_utils.dfy ===
/** Tasks and task ids (bidir/task_utils.py): the `Task` record, the
    24-game and ARC task constructors, and the table `num_to_id` builds from
    the lines of the task-number file. Reading files is not modelled; the
    constructors take the already loaded values. */
module TaskUtils {
  import opened Wrappers
  import opened PyBuiltins
  import opened Grids

  /** `Task(inputs, target)`: one tuple of examples per input slot, and the
      tuple of target examples. */
  datatype Task<V> = Task(inputs: seq<seq<V>>, target: seq<V>)

  /** Every input slot has one value per example. */
  predicate Consistent<V>(t: Task<V>) {
    forall i :: 0 <= i < |t.inputs| ==> |t.inputs[i]| == |t.target|
  }

  /** `twenty_four_task(inputs, target)`: a single example, so every input
      slot is a 1-tuple and the target is `(target,)`. */
  function TwentyFourTask(inputs: seq<int>, target: int): (t: Task<int>)
    ensures |t.inputs| == |inputs| && t.target == [target]
    ensures forall i :: 0 <= i < |inputs| ==> t.inputs[i] == [inputs[i]]
    ensures Consistent(t)
  {
    Task(seq(|inputs|, i requires 0 <= i < |inputs| => [inputs[i]]), [target])
  }

  /** The numbers of a single-example task, or `None` when it has more or
      fewer examples. */
  function TwentyFourNumbers(t: Task<int>): (r: Option<(seq<int>, int)>)
    ensures r.Some? <==> |t.target| == 1 && forall i :: 0 <= i < |t.inputs| ==> |t.inputs[i]| == 1
    ensures r.Some? ==> |r.value.0| == |t.inputs| && r.value.1 == t.target[0]
    ensures r.Some? ==> forall i :: 0 <= i < |t.inputs| ==> t.inputs[i] == [r.value.0[i]]
  {
    if |t.target| == 1 && forall i :: 0 <= i < |t.inputs| ==> |t.inputs[i]| == 1 then
      Some((seq(|t.inputs|, i requires 0 <= i < |t.inputs| => t.inputs[i][0]), t.target[0]))
    else None
  }

  lemma TwentyFourRoundTrip(inputs: seq<int>, target: int)
    ensures TwentyFourNumbers(TwentyFourTask(inputs, target)) == Some((inputs, target))
  {
    var t := TwentyFourTask(inputs, target);
    assert forall i :: 0 <= i < |t.inputs| ==> |t.inputs[i]| == 1;
    var numbers := TwentyFourNumbers(t).value.0;
    assert forall i :: 0 <= i < |inputs| ==> [numbers[i]] == [inputs[i]];
    assert forall i :: 0 <= i < |inputs| ==> numbers[i] == inputs[i];
    assert numbers == inputs;
  }

  /** `arc_task`'s `zip(*train_exs)`: one input slot holding the input grid of
      every training example and the target holding their outputs, in order.
      No training examples make the two-name unpacking a `ValueError`. */
  function ArcTask(examples: seq<(Grid, Grid)>): (r: Result<Task<Grid>>)
    ensures r.Ok? <==> |examples| > 0
    ensures r.Err? ==> r.error == ValueError
    ensures r.Ok? ==> |r.value.inputs| == 1 && Consistent(r.value) && |r.value.target| == |examples|
    ensures r.Ok? ==> forall k :: 0 <= k < |examples| ==>
      r.value.inputs[0][k] == examples[k].0 && r.value.target[k] == examples[k].1
  {
    if |examples| == 0 then Err(ValueError)
    else
      var ins := seq(|examples|, k requires 0 <= k < |examples| => examples[k].0);
      var outs := seq(|examples|, k requires 0 <= k < |examples| => examples[k].1);
      Ok(Task([ins], outs))
  }

  /** Zipping the single input slot with the target gives the examples back. */
  lemma ArcTaskUnzip(examples: seq<(Grid, Grid)>)
    requires |examples| > 0
    ensures var t := ArcTask(examples).value;
      seq(|t.target|, k requires 0 <= k < |t.target| => (t.inputs[0][k], t.target[k])) == examples
  {
  }

  // ---------------------------------------------------------------------------
  // num_to_id

  /** The characters `.rstrip(".json")` removes: a set, not a suffix. */
  const JsonChars: set<char> := {'.', 'j', 's', 'o', 'n'}

  /** The space-separated tokens of a line after `rstrip()`; never empty. */
  function IdTokens(raw: string): (parts: seq<string>)
    ensures |parts| >= 1
  {
    Split(RStrip(raw, Whitespace), ' ')
  }

  /** One line of the id file: the number is `int` of the first token (a
      `ValueError` if it is not one) and the id is the last token with
      trailing characters from `JsonChars` removed. */
  function ParseIdLine(raw: string): (r: Result<(int, string)>)
    ensures r.Err? ==> r.error == ValueError
  {
    var parts := IdTokens(raw);
    var key :- ParseInt(parts[0]);
    Ok((key, RStrip(parts[|parts| - 1], JsonChars)))
  }

  /** The character-set strip removes more than the extension when the id
      itself ends in one of its letters. */
  lemma JsonStripIsCharacterSet()
    ensures RStrip("mason.json", JsonChars) == "ma"
  {
    RStripUnique("mason.json", JsonChars, "ma");
  }

  /** `[f(x) for x in xs]` where `f` may raise: the first failure ends the
      comprehension. */
  function MapResult<A, B>(f: A -> Result<B>, xs: seq<A>): (r: Result<seq<B>>)
    ensures r.Ok? <==> forall k :: 0 <= k < |xs| ==> f(xs[k]).Ok?
    ensures r.Err? ==> exists k :: 0 <= k < |xs| && f(xs[k]) == Err(r.error) && forall j :: 0 <= j < k ==> f(xs[j]).Ok?
    ensures r.Ok? ==> |r.value| == |xs| && forall k :: 0 <= k < |xs| ==> f(xs[k]) == Ok(r.value[k])
  {
    if |xs| == 0 then Ok([])
    else
      var first := f(xs[0]);
      var rest := MapResult(f, xs[1..]);
      if first.Err? then Err(first.error)
      else if rest.Err? then
        assert forall k :: 1 <= k < |xs| ==> xs[k] == xs[1..][k - 1];
        var k :| 0 <= k < |xs[1..]| && f(xs[1..][k]) == Err(rest.error) && forall j :: 0 <= j < k ==> f(xs[1..][j]).Ok?;
        assert f(xs[k + 1]) == Err(rest.error) && forall j :: 0 <= j < k + 1 ==> f(xs[j]).Ok?;
        Err(rest.error)
      else
        var r := [first.value] + rest.value;
        assert forall k :: 1 <= k < |xs| ==> xs[k] == xs[1..][k - 1] && r[k] == rest.value[k - 1];
        Ok(r)
  }

  /** The (number, id) entry of every line, in order; the first malformed line raises. */
  function ParseIdLines(lines: seq<string>): (r: Result<seq<(int, string)>>)
    ensures r.Ok? <==> forall k :: 0 <= k < |lines| ==> ParseIdLine(lines[k]).Ok?
    ensures r.Err? ==> r.error == ValueError
    ensures r.Ok? ==> |r.value| == |lines| && forall k :: 0 <= k < |lines| ==> ParseIdLine(lines[k]) == Ok(r.value[k])
  {
    MapResult(ParseIdLine, lines)
  }

  /** The id of the last entry with a given number: what a dictionary built
      from the entries in order maps the number to. */
  function LastId(entries: seq<(int, string)>, num: int): Option<string> {
    if |entries| == 0 then None
    else if entries[|entries| - 1].0 == num then Some(entries[|entries| - 1].1)
    else LastId(entries[..|entries| - 1], num)
  }

  /** `{k: v for (k, v) in entries}`: later entries replace earlier ones. */
  function BuildTable(entries: seq<(int, string)>): (table: map<int, string>)
    ensures forall num :: num in table <==> LastId(entries, num).Some?
    ensures forall num :: num in table ==> table[num] == LastId(entries, num).value
  {
    if |entries| == 0 then map[]
    else
      var last := entries[|entries| - 1];
      BuildTable(entries[..|entries| - 1])[last.0 := last.1]
  }

  /** The dictionary comprehension of `num_to_id`. */
  function IdTable(lines: seq<string>): (r: Result<map<int, string>>)
    ensures r.Ok? <==> ParseIdLines(lines).Ok?
    ensures r.Err? ==> r.error == ValueError
    ensures r.Ok? ==> forall num :: num in r.value <==> LastId(ParseIdLines(lines).value, num).Some?
    ensures r.Ok? ==> forall num :: num in r.value ==> r.value[num] == LastId(ParseIdLines(lines).value, num).value
  {
    var entries :- ParseIdLines(lines);
    Ok(BuildTable(entries))
  }

  /** `num_to_id(task_num)` over the lines of the id file: the id of the last
      line with that number, and a `KeyError` for a number no line has. */
  function NumToId(lines: seq<string>, taskNum: int): (r: Result<string>)
    ensures ParseIdLines(lines).Err? ==> r == Err(ValueError)
    ensures ParseIdLines(lines).Ok? ==>
      r == match LastId(ParseIdLines(lines).value, taskNum)
           case Some(id) => Ok(id)
           case None => Err(KeyError)
  {
    var table :- IdTable(lines);
    if taskNum in table then Ok(table[taskNum]) else Err(KeyError)
  }

  /** The id found for a number comes from a line with that number. */
  lemma {:induction false} LastIdFromEntry(entries: seq<(int, string)>, num: int)
    requires LastId(entries, num).Some?
    ensures exists k :: 0 <= k < |entries| && entries[k] == (num, LastId(entries, num).value)
  {
    var n := |entries|;
    if entries[n - 1].0 != num {
      LastIdFromEntry(entries[..n - 1], num);
      var k :| 0 <= k < n - 1 && entries[..n - 1][k] == (num, LastId(entries[..n - 1], num).value);
      assert entries[k] == (num, LastId(entries, num).value);
    }
  }

  /** A line of the id file as it would be written for a number and an id. */
  function IdLine(num: int, id: string): string {
    IntToString(num) + " " + id + ".json\n"
  }

  /** An id without spaces that does not end in one of the stripped characters
      is read back exactly from its line (ARC ids are hexadecimal, so none of
      them ends in 'j', 's', 'o', 'n' or '.'). */
  lemma IdLineRoundTrip(num: int, id: string)
    requires ' ' !in id
    requires |id| == 0 || id[|id| - 1] !in JsonChars
    ensures ParseIdLine(IdLine(num, id)) == Ok((num, id))
  {
    var numeral := IntToString(num);
    var token := id + ".json";
    IdLineTokens(num, id);
    ParseIntRoundTrip(num);
    RStripUnique(token, JsonChars, id);
    assert ParseIdLine(IdLine(num, id)) == Ok((ParseInt(numeral).value, RStrip(token, JsonChars)));
  }

  /** A line splits into the numeral and the file name. */
  lemma IdLineTokens(num: int, id: string)
    requires ' ' !in id
    ensures IdTokens(IdLine(num, id)) == [IntToString(num), id + ".json"]
  {
    var numeral := IntToString(num);
    var token := id + ".json";
    var line := numeral + " " + token;
    assert IdLine(num, id) == line + "\n";
    StripNewline(line);
    NumeralHasNoSpace(num);
    assert ' ' !in token by {
      forall k | 0 <= k < |token| ensures token[k] != ' ' {
        if k < |id| {
          assert token[k] == id[k];
        }
      }
    }
    SplitTwo(numeral, token);
  }

  lemma StripNewline(line: string)
    requires |line| > 0 && line[|line| - 1] !in Whitespace
    ensures RStrip(line + "\n", Whitespace) == line
  {
    assert (line + "\n")[..|line|] == line;
  }

  /** Two space-free tokens joined by a space split back into the two. */
  lemma SplitTwo(a: string, b: string)
    requires ' ' !in a && ' ' !in b
    ensures Split(a + " " + b, ' ') == [a, b]
  {
    SplitJoin([a, b], ' ');
    assert Join([a, b], ' ') == a + " " + b;
  }

  lemma NumeralHasNoSpace(n: int)
    ensures ' ' !in IntToString(n)
  {
    var m: nat := if n < 0 then -n else n;
    var digits := NatToString(m);
    assert forall k :: 0 <= k < |digits| ==> digits[k] != ' ';
    if n < 0 {
      assert IntToString(n) == "-" + digits;
    }
  }

  /** Writing a table of (number, id) pairs as lines and reading it back with
      `num_to_id` finds, for each number, the id of its last entry. */
  lemma NumToIdReadsTable(table: seq<(int, string)>, num: int)
    requires forall k :: 0 <= k < |table| ==> ' ' !in table[k].1
    requires forall k :: 0 <= k < |table| ==> |table[k].1| == 0 || table[k].1[|table[k].1| - 1] !in JsonChars
    ensures var lines := seq(|table|, k requires 0 <= k < |table| => IdLine(table[k].0, table[k].1));
      NumToId(lines, num) == match LastId(table, num)
                             case Some(id) => Ok(id)
                             case None => Err(KeyError)
  {
    var lines := seq(|table|, k requires 0 <= k < |table| => IdLine(table[k].0, table[k].1));
    forall k | 0 <= k < |table| ensures ParseIdLine(lines[k]) == Ok(table[k]) {
      IdLineRoundTrip(table[k].0, table[k].1);
    }
    assert ParseIdLines(lines).value == table;
  }
}

=== FILE: utils.dfy ===
/** The small helpers of bidir/utils.py: the recoverable-failure assertion
    `soft_assert`, the equality assertion `assertEqual`, and `next_unused_path`, which
    picks a file name that does not exist yet. The file system is the set of
    paths for which `os.path.isfile` holds. */
module Utils {
  import opened Wrappers
  import opened PyBuiltins

  /** `soft_assert(condition)`: raises `SynthError` exactly when the condition fails. */
  function SoftAssert(condition: bool): (r: Outcome)
    ensures r == Pass <==> condition
    ensures r.Fail? ==> r.error == SynthError
  {
    if condition then Pass else Fail(SynthError)
  }

  /** `assertEqual(a, b)`: an `AssertionError` exactly when the values differ. */
  function AssertEqual<T(==)>(a: T, b: T): (r: Outcome)
    ensures r == Pass <==> a == b
    ensures r.Fail? ==> r.error == AssertionError
  {
    if a == b then Pass else Fail(AssertionError)
  }

  /** The `i`-th alternative name for a path split at its last '.' into `stem`
      and `ext` (which keeps the dot): `stem + "__i" + ext`. */
  function Candidate(stem: string, ext: string, i: nat): string {
    stem + "__" + NatToString(i) + ext
  }

  /** Different numbers give different alternative names. */
  lemma CandidateInjective(stem: string, ext: string, i: nat, j: nat)
    ensures Candidate(stem, ext, i) == Candidate(stem, ext, j) ==> i == j
  {
    var a, b := Candidate(stem, ext, i), Candidate(stem, ext, j);
    if a == b {
      var lo := |stem| + 2;
      assert |NatToString(i)| == |a| - lo - |ext| == |NatToString(j)|;
      assert a[lo..lo + |NatToString(i)|] == NatToString(i);
      assert b[lo..lo + |NatToString(j)|] == NatToString(j);
      NatToStringInjective(i, j);
    }
  }

  /** If the first `n` alternative names all exist, there are at least `n` files. */
  lemma {:induction false} CandidatesFitIn(stem: string, ext: string, n: nat, existing: set<string>)
    requires forall j :: 0 <= j < n ==> Candidate(stem, ext, j) in existing
    ensures n <= |existing|
  {
    var names := set j | 0 <= j < n :: Candidate(stem, ext, j);
    CandidateSetSize(stem, ext, n);
    assert names <= existing;
    assert existing == names + (existing - names);
  }

  lemma {:induction false} CandidateSetSize(stem: string, ext: string, n: nat)
    ensures |set j | 0 <= j < n :: Candidate(stem, ext, j)| == n
  {
    if n > 0 {
      var prev := set j | 0 <= j < n - 1 :: Candidate(stem, ext, j);
      CandidateSetSize(stem, ext, n - 1);
      var last := Candidate(stem, ext, n - 1);
      assert (set j | 0 <= j < n :: Candidate(stem, ext, j)) == prev + {last};
      forall j | 0 <= j < n - 1 ensures Candidate(stem, ext, j) != last {
        CandidateInjective(stem, ext, j, n - 1);
      }
    }
  }

  /** `next_unused_path(path)` against the set of existing files: the path itself
      if it does not exist, otherwise `stem + "__k" + ext` for the smallest `k`
      whose name does not exist. The split is at the last '.', and a path
      without one is a `ValueError`. Every alternative is built from the
      original stem, so suffixes do not accumulate. */
  method NextUnusedPath(path: string, existing: set<string>) returns (r: Result<string>)
    ensures r.Err? <==> '.' !in path
    ensures r.Err? ==> r.error == ValueError
    ensures r.Ok? ==> r.value !in existing
    ensures r.Ok? && path !in existing ==> r.value == path
    ensures r.Ok? && path in existing ==>
      var dot := RIndex(path, '.').value;
      exists k: nat ::
        && r.value == Candidate(path[..dot], path[dot..], k)
        && forall j :: 0 <= j < k ==> Candidate(path[..dot], path[dot..], j) in existing
  {
    var lastDot :- RIndex(path, '.');
    var extension := path[lastDot..];
    var fileName := path[..lastDot];
    var current := path;
    var i: nat := 0;
    while current in existing
      invariant i == 0 ==> current == path
      invariant i > 0 ==> path in existing
      invariant i > 0 ==> current == Candidate(fileName, extension, i - 1)
      invariant forall j :: 0 <= j && j + 1 < i ==> Candidate(fileName, extension, j) in existing
      decreases |existing| + 1 - i
    {
      CandidatesFitIn(fileName, extension, i, existing);
      current := Candidate(fileName, extension, i);
      i := i + 1;
    }
    r := Ok(current);
    if i > 0 {
      var k: nat := i - 1;
      assert current == Candidate(fileName, extension, k);
      assert forall j :: 0 <= j < k ==> Candidate(fileName, extension, j) in existing;
      assert lastDot == RIndex(path, '.').value;
      assert exists k': nat ::
        && current == Candidate(path[..lastDot], path[lastDot..], k')
        && forall j :: 0 <= j < k' ==> Candidate(path[..lastDot], path[lastDot..], j) in existing;
    }
  }
}

=== FILE: wrappers.dfy ===
/** Failure-compatible result types shared by every module of the model.

    The Python code signals failure by raising exceptions; each exception class
    that the modelled code can raise is one constructor of `Error`, so a caller
    can tell a recoverable `SynthError` from a programming error. */
module Wrappers {

  /** The exceptions the modelled code raises, named after the Python (or Java) class. */
  datatype Error =
    | SynthError          // bidir.utils.SynthError: the recoverable synthesis failure
    | AssertionError      // a failed `assert` statement
    | IndexError          // an out-of-range list or array index
    | ValueError          // a malformed value (bad int literal, no '.', bad unpacking, negative pad)
    | KeyError            // a missing dictionary key
    | ZeroDivisionError   // integer division by zero
    | TypeError           // an operation applied to a value of the wrong kind
    | Exception           // a plain `Exception(...)`

  datatype Option<+T> = None | Some(value: T)

  datatype Result<+T> = Ok(value: T) | Err(error: Error) {

    predicate IsFailure() {
      Err?
    }

    function PropagateFailure<U>(): Result<U>
      requires Err?
    {
      Err(error)
    }

    function Extract(): T
      requires Ok?
    {
      value
    }
  }

  /** A check that either passes or raises; the model of a function returning `None`. */
  datatype Outcome = Pass | Fail(error: Error)
}
